=== FILE: README.md ===
# Machine-state timeline from signal logs — a Dafny model

The program reads one CSV log per day from a folder. Each log row is one
ten-second sample of eighteen binary signals of a machine. The program
keeps the day files in a requested date range and labels every row with a
machine state: `ALARM`, `AUTO KJØRING` (automatic running), `FEED HOLD`,
`OPPSETT` (setup) or `empty`. It gives each row a ten-second interval on a
shared 24-hour axis, adds a lane label `YYYY-MM-DD`, and concatenates the days
into one table for a timeline plot.

The model covers four pieces of `main.py`:

* **The state classifier** (`create_machine_state`).
  * `Classifier` holds the rules on a record of eighteen integer signals, as
    an if/elif chain.
  * `Classifier.FirstMatch` is an independent first-match-wins reference over
    a rule list. The model proves which reorderings of the rules change the
    result and which do not.
  * `Columns` models how the program evaluates the rules on a row of named
    cells. Python's `and`, `or`, `all(...)` and `any(...)` stop as soon as the
    outcome is known. A column the file lacks raises `KeyError` only when the
    evaluation reaches it (`Columns.IdleRowNeedsTenColumns`).
* **The day-file selection** (`get_csv_files`), in `DateFilter`.
  * `Text` provides the string operations it uses: `int()` on a string,
    `str.replace(x, '')`, `str.endswith` and clamped slicing.
  * A stem or date that `int()` rejects raises `ValueError` out of the whole
    selection once a `.csv` name reaches it (`DateFilter.BadStemRaises`,
    `DateFilter.BadStartRaises`, `DateFilter.BadEndRaises`).
  * Python evaluates the range test lazily, so a malformed date is only read
    when a file needs it.
* **The interval and lane arithmetic** (`make_dataframe`), in `Timeline`.
  Time is whole seconds after the anchor 2024-01-01 00:00:00.
* **The assembly loop** (`get_dataframe`), in `Assembly`. Reading a file is a
  function parameter `load`.

`Wrappers` holds the `Option` and `Result` types that model the two Python
exceptions.

Four behaviours of the code that the model states outright:

* A `.csv` name whose stem `int()` rejects (for example `notes.csv`) makes
  `get_csv_files` raise `ValueError`; it is not skipped
  (`DateFilter.BadStemRaises`).
* A selection with no file in range gives an empty table, not an error
  (`Assembly.GetDataframe`).
* The elif order puts automatic running before setup, but no row meets both
  conditions: automatic running needs SMZ, INP and AFC all 0, and setup needs
  one of them at 1 (`Classifier.AutoRunningExcludesSetup`).
* A missing signal column raises `KeyError` when the classifier reaches it
  (`Columns.ReachedMissingColumnRaises`, `Columns.MissingAlarmColumnRaises`).
  It never turns into a default state (`Columns.NoSilentDefault`).

## Model

| member | source | states |
|---|---|---|
| Signals.Label | main.py:46-72 | every state is written as one of the five texts `ALARM`, `AUTO KJØRING`, `FEED HOLD`, `OPPSETT`, `empty` |
| Signals.ParseLabel | main.py:90-94 | a text is read back as a state exactly when it is one of the five labels the plot colours |
| Signals.LabelRoundTrip | main.py:46-72 | reading a written label gives its state back, and every readable label is written back unchanged |
| Signals.LabelInjective | main.py:46-72 | two states share a label only if they are the same state, so the label column loses nothing |
| Signals.ColumnNameInjective | main.py:45-68 | the eighteen column headers the classifier reads are pairwise different, so each lookup names one column |
| Signals.RowOf | main.py:42 | the record view of a row that has every column keeps every column's value |
| Signals.CellsOf | main.py:42 | the cells of a record form a complete row, and the record view gives the record back |
| Classifier.Classify | main.py:42-72 | the result's rule holds on the row, and no rule of higher priority holds |
| Classifier.ClassifyIsFirstMatch | main.py:42-72 | a state is the classifier's result if and only if its rule holds and every higher-priority rule fails |
| Classifier.ClassifyTotal | main.py:66-72 | the result is `empty` exactly when none of the four rules holds |
| Classifier.AlarmOverrides | main.py:45-46 | `ATMD_ALARM == 1` gives `ALARM` whatever every other signal reads |
| Classifier.AutoRunningExcludesSetup | main.py:49-69 | no row satisfies both the automatic-running and the setup condition, so automatic running always wins over setup; any row without alarm that runs automatically is automatic running |
| Classifier.AutoRunningExcludesFeedHold | main.py:49-62 | no row satisfies both the automatic-running and the feed-hold condition |
| Classifier.FeedHoldDontCares | main.py:58-62 | with DEN2, CXF and OP each in {0, 1}, feed hold depends only on MEM/TAPE and SMZ, INP and AFC; a value outside {0, 1} in any of the three defeats it |
| Classifier.FeedHoldStable | main.py:58-64 | moving DEN2, CXF or OP of a feed-hold row to other values in {0, 1} keeps the row in feed hold |
| Classifier.SetupWhenEarlierRulesFail | main.py:66-69 | a mode flag with SMZ, INP or AFC set gives `OPPSETT` once alarm, automatic running and feed hold fail |
| Classifier.FirstMatch | main.py:44-72 | the first-match evaluation of a rule list is `empty` if and only if no rule holds; otherwise it is the first rule in the list that holds |
| Classifier.ClassifyIsRuleList | main.py:44-72 | the if/elif chain equals the first-match evaluation of the list alarm, automatic running, feed hold, setup |
| Classifier.SwapFrontRules | main.py:44-72 | swapping the first two rules of a list changes no result on a row where they cannot both hold |
| Classifier.SwapExclusiveRules | main.py:44-72 | swapping any two adjacent rules changes no result on a row where they cannot both hold |
| Classifier.AutoRunningFeedHoldOrderIrrelevant | main.py:48-64 | trying feed hold before automatic running gives the same state on every row |
| Classifier.AlarmMustPrecedeAutoRunning | main.py:44-55 | trying automatic running before the alarm gives a different state on some row |
| Classifier.FeedHoldMustPrecedeSetup | main.py:57-69 | trying setup before feed hold gives a different state on some row |
| Columns.Eval | main.py:45-68 | short-circuit evaluation fixed case by case: a lookup of a missing column raises `KeyError` for it; an error on the left of `and`/`or` is the result; an `and` with a false left side is false and an `or` with a true left side is true without the right side; otherwise the right side's outcome is the result. It fails only on a column the rule mentions and the row lacks, and cannot fail when the row has all of them |
| Columns.ClassifyCells | main.py:42-72 | the program's classifier on named cells raises only for a column the row lacks, and never on a row with every column |
| Columns.EvalComplete | main.py:45-68 | on a row with every column, evaluation succeeds with the rule's truth on the record |
| Columns.AlarmRuleMeaning | main.py:45 | the alarm condition holds exactly when the alarm rule does |
| Columns.AutoRunningRuleMeaning | main.py:49-53 | the five-clause automatic-running condition holds exactly when the automatic-running rule does |
| Columns.FeedHoldRuleMeaning | main.py:58-62 | the feed-hold condition, don't-care clauses included, holds exactly when the feed-hold rule does |
| Columns.ModeTreeMeaning | main.py:67 | the `any` over the seven mode flags holds exactly when some mode flag is set |
| Columns.SmzInpAfcTreeMeaning | main.py:68 | the `any` over SMZ, INP and AFC holds exactly when one of them is set |
| Columns.SetupRuleMeaning | main.py:67-68 | the setup condition holds exactly when the setup rule does |
| Columns.AllEqualHolds | main.py:51 | `all(df[col] == v for col in cols)` holds exactly when every listed column reads `v` |
| Columns.AnyEqualHolds | main.py:67-68 | `any(df[col] == v for col in cols)` holds exactly when some listed column reads `v` |
| Columns.ClassifyCellsComplete | main.py:42-72 | on a row with every column, the program's classifier succeeds with `Classify` of the record |
| Columns.EvalExtends | main.py:45-68 | a successful evaluation gives the same answer on any row with more columns and the same values |
| Columns.ClassifyCellsExtends | main.py:42-72 | a state computed despite missing columns does not change once the missing columns are supplied |
| Columns.NoSilentDefault | main.py:42-72 | whenever the program produces a state for a row with missing columns, every completion of the row classifies to that state |
| Columns.AlarmNeedsOnlyItsColumn | main.py:45-46 | a row whose alarm cell reads 1 is `ALARM` even when every other column is missing |
| Columns.MissingAlarmColumnRaises | main.py:45 | a row without the alarm column raises `KeyError` naming that column |
| Columns.AnyEqualNone | main.py:67-68 | `any(...)` over present columns none of which reads `v` is false |
| Columns.IdleRowNeedsTenColumns | main.py:42-72 | a row whose alarm, MEM, TAPE and seven mode flags all read 0 is `empty` whatever other columns it lacks, because no other column is looked up |
| Columns.ReachedMissingColumnRaises | main.py:45-51 | a row without alarm, with MEM 1 and DEN2 and SMZ at 0 but no INP column, raises `KeyError` naming INP in the `all(...)` of the automatic-running rule, whatever the other columns read |
| Text.ParseInt | main.py:24 | `int()` succeeds exactly on an optional sign followed by at least one ASCII digit, and an unsigned or `+` literal is never negative |
| Text.DecimalString | main.py:24 | the decimal digits of `n` form a non-empty digit string whose value is `n` |
| Text.ParseDecimalString | main.py:24 | `int(str(n)) == n`, and `int("-" + str(n)) == -n` |
| Text.RemoveAll | main.py:21-24 | `replace(pat, '')` never makes a string longer |
| Text.RemoveAllAbsent | main.py:21-24 | a string with no character that starts the pattern is left unchanged |
| Text.RemoveAllChar | main.py:21-22 | after removing a one-character pattern, the character no longer occurs |
| Text.RemoveAllSplit | main.py:21-22 | removing `c` from `a c b`, where `a` has no `c`, keeps `a` and continues in `b` |
| Text.RemoveTrailing | main.py:24 | removing a pattern that ends the string, from a remainder that cannot start the pattern, leaves exactly the remainder |
| Text.Slice | main.py:37 | Python's `s[i:j]` is the ordinary slice when the bounds fit, runs to the end of the string when only the end bound is past it, and is empty when the start is past the end or past the string |
| Text.SliceConcat | main.py:37 | adjacent clamped slices `s[i:j] + s[j:k]` join into `s[i:k]` for every string length |
| DateFilter.ToInt | main.py:24 | `int()` returns the parsed value of a literal and raises `ValueError` carrying the text otherwise |
| DateFilter.CsvFiles | main.py:19 | a name is kept exactly when it is listed and ends in `.csv` (`DateFilter.IsCsv`) |
| DateFilter.DateKey | main.py:21-22 | the dash-free date has no dash left, and a date without dashes is unchanged |
| DateFilter.InRange | main.py:24 | the lazy range test is true exactly when stem and bounds parse and the stem lies between the bounds; an error names a text that does not parse; a bad stem raises on the stem; with a parsing stem a bad start raises on the start; a stem below the start gives false without reading the end; a stem at or above the start with a bad end raises on the end |
| DateFilter.RangeFilter | main.py:24 | on success a file is kept exactly when it is in range; an error names a stem or bound that does not parse; any bad stem makes the filter raise; a bad start raises as soon as there is a file; a bad end raises once some file's stem reaches the start |
| DateFilter.GetCsvFiles | main.py:16-26 | on success a name is selected exactly when it is listed, ends in `.csv` and its stem lies between the dash-free dates; errors carry a text `int()` rejects; a `.csv` name with a bad stem, a bad start date with any `.csv` name, or a bad end date with a `.csv` name whose stem reaches the start makes the call raise |
| DateFilter.GetCsvFilesIsSelection | main.py:16-26 | with integer dates and stems, the result is the reference filter: the `.csv` names in range, in listing order |
| DateFilter.BadStemRaises | main.py:24 | a listed `.csv` name whose stem `int()` rejects makes the whole selection raise instead of being skipped |
| DateFilter.BadStartRaises | main.py:21-24 | a start date `int()` rejects makes the selection raise once any `.csv` name is listed |
| DateFilter.BadEndRaises | main.py:22-24 | an end date `int()` rejects makes the selection raise once a `.csv` name's parsing stem is at or above the start |
| DateFilter.NoCsvSelectsNothing | main.py:19-24 | a listing with no `.csv` name selects nothing and never parses the dates |
| DateFilter.RangeFilterBelowStart | main.py:24 | files whose day lies before the start are all dropped, whatever the end date is |
| DateFilter.EndDateUnreadBelowStart | main.py:16-26 | when every `.csv` day lies before the start, the selection is empty even if the end date is no integer |
| DateFilter.DayFileStem | main.py:19-24 | a name `YYYYMMDD.csv` ends in `.csv` (`DateFilter.IsCsv`) and its stem, `replace('.csv', '')` (`DateFilter.Stem`), is its digits |
| DateFilter.DateKeyOfDashed | main.py:21-22 | removing the dashes of `Y-M-D` joins the three parts |
| DateFilter.ThreeDaySelection | main.py:24 | of three day files with parsing stems, two in range and one after, the reference filter keeps the first two in order |
| DateFilter.SelectionExample | main.py:16-26 | files 20240103, 20240105 and 20240110 with the range 2024-01-03 to 2024-01-09 select the first two, in listing order |
| Timeline.ResourceLabel | main.py:37 | for a name of at least eight characters, the lane label is ten characters long: the name's first eight characters with dashes at positions 4 and 7 |
| Timeline.ShortNameLabel | main.py:37 | a name shorter than four characters gives itself followed by two dashes |
| Timeline.MidNameLabel | main.py:37 | a name of four to seven characters keeps all its characters, with a dash after the fourth and the sixth; a part the name is too short for is empty |
| Timeline.ResourceLabelRoundTrip | main.py:21-37 | removing the dashes of a lane label gives back the first eight characters of the file name |
| Timeline.MakeFrame | main.py:33-37 | one timed row per input row, in order: the first starts at the anchor, every interval is ten seconds wide, each ends where the next starts, all share the file's lane |
| Timeline.FrameStart | main.py:33-36 | row `i` spans `[10 i, 10 i + 10)` seconds after the anchor |
| Timeline.FrameOrdered | main.py:33-36 | within a file, intervals strictly increase and never overlap |
| Timeline.FrameExample | main.py:33-37 | three rows of `20240103.csv` lie on lane `2024-01-03` at 0–10 s, 10–20 s and 20–30 s |
| Timeline.SelectedLaneInRange | main.py:16-37 | a selected day file `YYYYMMDD.csv` lies on a lane whose date, without dashes, is within the requested range |
| Assembly.LabelFrame | main.py:81 | `df.apply` over a file's rows succeeds exactly when every row classifies, and then has one labelled row per input row |
| Assembly.LabelFrameRow | main.py:81 | each labelled row keeps its cells, interval and lane and carries the state the classifier gives its cells |
| Assembly.LabelFrameFirstFailure | main.py:81 | a failed `apply` raises the `KeyError` of the first row that cannot be classified, all earlier rows classifying |
| Assembly.FileFrameStates | main.py:80-81 | every row of a labelled day file (`Assembly.FileFrame`: `make_dataframe` then `apply`) carries its classifier state |
| Assembly.Concat | main.py:79-82 | concatenating frames computed in order succeeds exactly when every frame does |
| Assembly.ConcatLength | main.py:82 | the concatenation has as many rows as all frames together |
| Assembly.ConcatLayout | main.py:82 | row `i` of frame `j` sits in the concatenation after all rows of earlier frames |
| Assembly.ConcatFirstFailure | main.py:79-82 | a failed concatenation carries the error of the first failing frame, every earlier frame succeeding |
| Assembly.FirstFailureCarries | main.py:79-82 | once a prefix of the frames fails, the later frames do not change the outcome |
| Assembly.ConcatFrames | main.py:79-82 | the labelled day files concatenate exactly when every selected file's frame succeeds |
| Assembly.ConcatFramesLayout | main.py:79-82 | in the concatenation, row `i` of selected file `j` sits after all rows of earlier files, with that file's cells, lane, the interval starting at `10 i` seconds and the classifier's state |
| Assembly.ConcatFramesFirstFailure | main.py:79-82 | a failed concatenation raises the `KeyError` of the first selected file whose frame fails |
| Assembly.CompleteFilesClassify | main.py:42-82 | when every row of every file has all eighteen columns, the loop succeeds and each row's state is `Classify` of its record |
| Assembly.MissingAlarmRaises | main.py:79-82 | a first file whose first row lacks `ATMD_ALARM`, as after `dropna` dropped that all-empty column, makes the loop raise `KeyError('ATMD_ALARM')`, the error naming that header |
| Assembly.AppendFrames | main.py:79-82 | the `for` loop's result is the concatenation of the files' frames, or the first file's `KeyError`, and every row carries its classifier state |
| Assembly.GetDataframe | main.py:75-84 | a selection `ValueError` propagates unchanged; otherwise the result succeeds exactly when every selected file labels, raises the first `KeyError` otherwise, is the frames concatenated in order with every row's classifier state, and is empty for an empty selection |

## Left out

- Reading the folder (`os.listdir`) is left out. The listing is the parameter `names`, in whatever order the file system returns it.
- Reading a file (`pd.read_csv` and `dropna(how='all', axis=1)`) is left out. The rows of a file are the parameter `load`, each row a map from column to cell that already lacks the columns `dropna` removed. A lookup of such a column raises `KeyError`, which leaves `get_dataframe` (`Assembly.MissingAlarmRaises`).
- Assembly.GetDataframe: a day file with no data rows gives an empty frame and the loop goes on. Pandas may instead raise `ValueError` when it assigns the empty result of `df.apply` to `Machine_State`; that error is not modelled.
- The plot (`plot`, plotly, colours, grid lines, `show`) is left out, because it is output only. Only the five label texts it colours are modelled.
- `pd.date_range` and `pd.Timedelta` are left out. Timestamps are whole seconds after 2024-01-01 00:00:00, so calendar and time-zone handling are not modelled.
- Missing or non-numeric cells are left out. The model takes every signal as an integer, and a missing reading behaves like any value other than 0 and 1 in every comparison.
- `int()` on strings is only partly modelled. It takes an optional sign and ASCII digits. Surrounding whitespace, `_` digit separators and non-ASCII digits are not modelled.
- The pandas frame layout (index, column order, union of columns across files, the extra `timestamp` column) is left out. Each row carries only its signals, interval, lane and state.
- Other exception types are left out. Only `ValueError` from `int()` and `KeyError` from a column lookup are modelled, as `Result` errors.
- Timeline.ResourceLabel: its own contract describes names of at least eight characters. Shorter names are described by `Timeline.ShortNameLabel` (fewer than four) and `Timeline.MidNameLabel` (four to seven).
- Text.RemoveAll: its own contract only bounds the length. What is removed is stated by `Text.RemoveAllAbsent`, `Text.RemoveAllChar`, `Text.RemoveAllSplit` and `Text.RemoveTrailing`.
- Columns.ClassifyCells: rows are compared per column. Pandas row objects, and the cost of `df.apply`, are not modelled.

=== FILE: assembly.dfy ===
/**
 * Assembly of the plotted table (`get_dataframe`): for every selected day
 * file, in selection order, its frame with a machine state per row, all
 * concatenated into one sequence.
 *
 * Reading a file (`pd.read_csv` followed by dropping the columns that are
 * empty in every row) is a parameter: `load` gives the cells of each row of
 * a file. A column the file lacks, or one that was dropped, is missing from
 * the cells, and the classifier raises `KeyError` on the first row that
 * reaches it; the error leaves `get_dataframe` unhandled.
 */
module Assembly {
  import opened Wrappers
  import opened Signals
  import opened Classifier
  import opened Columns
  import opened DateFilter
  import opened Timeline

  /** The exception that leaves `get_dataframe`: `ValueError` from the selection or `KeyError` from the classifier. */
  datatype Raised = RaisedValueError(valueError: ValueError) | RaisedKeyError(keyError: KeyError)

  /** A row of the final table: a timed row of cells with its `Machine_State`. */
  datatype LabelledRow = LabelledRow(cells: Cells, start: int, end: int, resource: string, state: MachineState)

  /** Every row of the frame classifies without a `KeyError`. */
  predicate AllClassify(frame: seq<TimedRow<Cells>>) {
    forall i :: 0 <= i < |frame| ==> ClassifyCells(frame[i].signals).Ok?
  }

  /**
   * `df.apply(create_machine_state, axis=1)`: the rows are classified in
   * order. It succeeds exactly when every row classifies, and then has one
   * labelled row per row (`LabelFrameRow`); otherwise it raises the
   * `KeyError` of the first row that fails (`LabelFrameFirstFailure`).
   */
  function LabelFrame(frame: seq<TimedRow<Cells>>): (r: Result<seq<LabelledRow>, KeyError>)
    ensures r.Ok? <==> AllClassify(frame)
    ensures r.Ok? ==> |r.value| == |frame|
  {
    if |frame| == 0 then Ok([])
    else
      var t := frame[0];
      var head := ClassifyCells(t.signals);
      assert forall i :: 1 <= i < |frame| ==> frame[i] == frame[1..][i - 1];
      if head.Err? then Err(head.error)
      else
        var rest := LabelFrame(frame[1..]);
        if rest.Err? then Err(rest.error)
        else Ok([LabelledRow(t.signals, t.start, t.end, t.resource, head.value)] + rest.value)
  }

  /** A labelled row keeps the row's cells, interval and lane and adds the state the classifier gives it. */
  lemma {:induction false} LabelFrameRow(frame: seq<TimedRow<Cells>>, i: nat)
    requires LabelFrame(frame).Ok? && i < |frame|
    ensures var row := LabelFrame(frame).value[i];
      && row.cells == frame[i].signals && row.start == frame[i].start
      && row.end == frame[i].end && row.resource == frame[i].resource
      && ClassifyCells(frame[i].signals) == Ok(row.state)
    decreases i
  {
    if i > 0 {
      assert AllClassify(frame[1..]) by {
        assert forall k :: 0 <= k < |frame| - 1 ==> frame[1..][k] == frame[k + 1];
      }
      LabelFrameRow(frame[1..], i - 1);
    }
  }

  /** A failed labelling raises the `KeyError` of the first row that fails. */
  lemma {:induction false} LabelFrameFirstFailure(frame: seq<TimedRow<Cells>>)
    requires LabelFrame(frame).Err?
    ensures exists k :: (0 <= k < |frame| && ClassifyCells(frame[k].signals) == Err(LabelFrame(frame).error)
      && forall i :: 0 <= i < k ==> ClassifyCells(frame[i].signals).Ok?)
    decreases |frame|
  {
    if ClassifyCells(frame[0].signals).Ok? {
      var tail := frame[1..];
      assert forall k :: 0 <= k < |tail| ==> tail[k] == frame[k + 1];
      LabelFrameFirstFailure(tail);
      var k :| 0 <= k < |tail| && ClassifyCells(tail[k].signals) == Err(LabelFrame(tail).error)
        && forall i :: 0 <= i < k ==> ClassifyCells(tail[i].signals).Ok?;
      assert ClassifyCells(frame[k + 1].signals) == Err(LabelFrame(frame).error);
    }
  }

  /** The labelled frame of one file. */
  function FileFrame(name: string, load: string -> seq<Cells>): Result<seq<LabelledRow>, KeyError> {
    LabelFrame(MakeFrame(name, load(name)))
  }

  /** Every labelled row carries the state the classifier gives its cells. */
  predicate StatesAgree(rows: seq<LabelledRow>) {
    forall k :: 0 <= k < |rows| ==> ClassifyCells(rows[k].cells) == Ok(rows[k].state)
  }

  /** Rows whose states agree with their cells still do once appended. */
  lemma StatesAgreeAppend(a: seq<LabelledRow>, b: seq<LabelledRow>)
    requires StatesAgree(a) && StatesAgree(b)
    ensures StatesAgree(a + b)
  {
    assert forall k :: 0 <= k < |a + b| ==> (a + b)[k] == if k < |a| then a[k] else b[k - |a|];
  }

  /** Every row of a labelled file carries the state the classifier gives its cells. */
  lemma FileFrameStates(name: string, load: string -> seq<Cells>)
    requires FileFrame(name, load).Ok?
    ensures StatesAgree(FileFrame(name, load).value)
  {
    var frame := MakeFrame(name, load(name));
    forall k | 0 <= k < |FileFrame(name, load).value|
      ensures ClassifyCells(FileFrame(name, load).value[k].cells) == Ok(FileFrame(name, load).value[k].state)
    {
      LabelFrameRow(frame, k);
    }
  }

  /**
   * `pd.concat` over frames computed one after another: the rows of all
   * frames in order, or the error of the first frame that failed.
   */
  function Concat<T, E>(frames: seq<Result<seq<T>, E>>): (r: Result<seq<T>, E>)
    ensures r.Ok? <==> forall j :: 0 <= j < |frames| ==> frames[j].Ok?
    decreases |frames|
  {
    if |frames| == 0 then Ok([])
    else
      var n := |frames| - 1;
      var prefix := Concat(frames[..n]);
      assert forall j :: 0 <= j < n ==> frames[..n][j] == frames[j];
      if prefix.Err? then prefix
      else if frames[n].Err? then Err(frames[n].error)
      else Ok(prefix.value + frames[n].value)
  }

  /** The number of rows of the successful frames among `frames`. */
  function Rows<T, E>(frames: seq<Result<seq<T>, E>>): nat {
    if |frames| == 0 then 0
    else Rows(frames[..|frames| - 1]) + (if frames[|frames| - 1].Ok? then |frames[|frames| - 1].value| else 0)
  }

  /** A successful concatenation has the rows of all frames. */
  lemma {:induction false} ConcatLength<T, E>(frames: seq<Result<seq<T>, E>>)
    requires Concat(frames).Ok?
    ensures |Concat(frames).value| == Rows(frames)
    decreases |frames|
  {
    if |frames| > 0 {
      var n := |frames| - 1;
      assert forall j :: 0 <= j < n ==> frames[..n][j] == frames[j];
      ConcatLength(frames[..n]);
    }
  }

  /** In a successful concatenation, row `i` of frame `j` sits after the rows of the frames before it. */
  lemma {:induction false} ConcatLayout<T, E>(frames: seq<Result<seq<T>, E>>, j: nat, i: nat)
    requires Concat(frames).Ok?
    requires j < |frames| && i < |frames[j].value|
    ensures Rows(frames[..j]) + i < |Concat(frames).value|
    ensures Concat(frames).value[Rows(frames[..j]) + i] == frames[j].value[i]
    decreases |frames|
  {
    var n := |frames| - 1;
    var prefix := frames[..n];
    assert frames[..n + 1] == frames;
    assert forall k :: 0 <= k < n ==> prefix[k] == frames[k];
    ConcatLength(prefix);
    if j < n {
      assert prefix[..j] == frames[..j];
      ConcatLayout(prefix, j, i);
    }
  }

  /** A failed concatenation carries the error of the first frame that failed. */
  lemma {:induction false} ConcatFirstFailure<T, E>(frames: seq<Result<seq<T>, E>>)
    requires Concat(frames).Err?
    ensures exists j :: (0 <= j < |frames| && frames[j] == Err(Concat(frames).error)
      && forall i :: 0 <= i < j ==> frames[i].Ok?)
    decreases |frames|
  {
    var n := |frames| - 1;
    var pre := frames[..n];
    assert forall j :: 0 <= j < n ==> pre[j] == frames[j];
    if Concat(pre).Err? {
      ConcatFirstFailure(pre);
    } else {
      assert frames[n] == Err(Concat(frames).error);
    }
  }

  /** Once a prefix of the frames fails, the whole concatenation fails with the same error. */
  lemma {:induction false} FirstFailureCarries<T, E>(frames: seq<Result<seq<T>, E>>, m: nat)
    requires m <= |frames|
    requires Concat(frames[..m]).Err?
    ensures Concat(frames) == Concat(frames[..m])
    decreases |frames|
  {
    if m < |frames| {
      var n := |frames| - 1;
      assert frames[..n][..m] == frames[..m];
      FirstFailureCarries(frames[..n], m);
    } else {
      assert frames[..m] == frames;
    }
  }

  /** The labelled frames of `files`, in order. */
  function FileFrames(files: seq<string>, load: string -> seq<Cells>): (r: seq<Result<seq<LabelledRow>, KeyError>>)
    ensures |r| == |files|
    ensures forall j :: 0 <= j < |files| ==> r[j] == FileFrame(files[j], load)
  {
    seq(|files|, j requires 0 <= j < |files| => FileFrame(files[j], load))
  }

  /** The labelled frames of `files`, concatenated; it succeeds exactly when every file's frame does. */
  function ConcatFrames(files: seq<string>, load: string -> seq<Cells>): (r: Result<seq<LabelledRow>, KeyError>)
    ensures r.Ok? <==> forall j :: 0 <= j < |files| ==> FileFrame(files[j], load).Ok?
  {
    Concat(FileFrames(files, load))
  }

  /** Where the rows of `files[j]` begin in the concatenation: the rows of the files before it. */
  function Offset(files: seq<string>, j: nat, load: string -> seq<Cells>): nat
    requires j <= |files|
  {
    Rows(FileFrames(files, load)[..j])
  }

  /**
   * In a successful concatenation, row `i` of file `j` sits at
   * `Offset(j) + i`: it keeps the file's cells, its state is the
   * classifier's, its interval starts `10 i` seconds after the anchor, and
   * its lane is the file's.
   */
  lemma ConcatFramesLayout(files: seq<string>, load: string -> seq<Cells>, j: nat, i: nat)
    requires ConcatFrames(files, load).Ok?
    requires j < |files| && i < |load(files[j])|
    ensures Offset(files, j, load) + i < |ConcatFrames(files, load).value|
    ensures var row := ConcatFrames(files, load).value[Offset(files, j, load) + i];
      && row.cells == load(files[j])[i]
      && ClassifyCells(load(files[j])[i]) == Ok(row.state)
      && row.start == Epoch + Period * i
      && row.end == row.start + Period
      && row.resource == ResourceLabel(files[j])
  {
    var frames := FileFrames(files, load);
    var frame := MakeFrame(files[j], load(files[j]));
    assert frames[j] == LabelFrame(frame);
    assert frames[j].Ok?;
    ConcatLayout(frames, j, i);
    assert ConcatFrames(files, load).value[Offset(files, j, load) + i] == LabelFrame(frame).value[i];
    LabelFrameRow(frame, i);
    FrameStart(files[j], load(files[j]), i);
  }

  /** A failed concatenation raises the `KeyError` of the first file whose frame fails. */
  lemma ConcatFramesFirstFailure(files: seq<string>, load: string -> seq<Cells>)
    requires ConcatFrames(files, load).Err?
    ensures exists j :: (0 <= j < |files| && FileFrame(files[j], load) == Err(ConcatFrames(files, load).error)
      && forall i :: 0 <= i < j ==> FileFrame(files[i], load).Ok?)
  {
    ConcatFirstFailure(FileFrames(files, load));
  }

  /**
   * Files that keep every signal column in every row always label: each row
   * gets exactly `Classify` of its record.
   */
  lemma CompleteFilesClassify(files: seq<string>, load: string -> seq<Cells>, j: nat, i: nat)
    requires forall f, k :: f in files && 0 <= k < |load(f)| ==> Complete(load(f)[k])
    requires j < |files| && i < |load(files[j])|
    ensures ConcatFrames(files, load).Ok?
    ensures Offset(files, j, load) + i < |ConcatFrames(files, load).value|
    ensures ConcatFrames(files, load).value[Offset(files, j, load) + i].state == Classify(RowOf(load(files[j])[i]))
  {
    forall f | f in files
      ensures FileFrame(f, load).Ok?
    {
      var frame := MakeFrame(f, load(f));
      forall k | 0 <= k < |frame|
        ensures ClassifyCells(frame[k].signals).Ok?
      {
        ClassifyCellsComplete(load(f)[k]);
      }
    }
    ConcatFramesLayout(files, load, j, i);
    ClassifyCellsComplete(load(files[j])[i]);
  }

  /** A first selected file whose first row lacks `ATMD_ALARM` makes the assembly raise `KeyError` for that column. */
  lemma MissingAlarmRaises(files: seq<string>, load: string -> seq<Cells>)
    requires |files| > 0 && |load(files[0])| > 0
    requires AtmdAlarm !in load(files[0])[0]
    ensures ConcatFrames(files, load) == Err(MissingColumn(AtmdAlarm))
    ensures ColumnName(ConcatFrames(files, load).error.column) == "ATMD_ALARM"
  {
    var frame := MakeFrame(files[0], load(files[0]));
    MissingAlarmColumnRaises(frame[0].signals);
    var frames := FileFrames(files, load);
    assert frames[0] == Err(MissingColumn(AtmdAlarm));
    assert Concat(frames[..1]) == Err(MissingColumn(AtmdAlarm)) by {
      assert frames[..1][..0] == [];
    }
    FirstFailureCarries(frames, 1);
    assert ColumnName(AtmdAlarm) == "ATMD_ALARM";
  }

  /**
   * The `for` loop of `get_dataframe`: append each file's labelled frame in
   * order, stopping at the `KeyError` of the first file whose rows the
   * classifier cannot read.
   */
  method AppendFrames(dates: seq<string>, load: string -> seq<Cells>) returns (r: Result<seq<LabelledRow>, KeyError>)
    ensures r == ConcatFrames(dates, load)
    ensures r.Ok? ==> StatesAgree(r.value)
  {
    var table: seq<LabelledRow> := [];
    var n := 0;
    while n < |dates|
      invariant n <= |dates|
      invariant Concat(FileFrames(dates, load)[..n]) == Ok(table)
      invariant StatesAgree(table)
    {
      var frame := FileFrame(dates[n], load);
      ghost var frames := FileFrames(dates, load);
      assert frames[..n + 1][..n] == frames[..n] && frames[n] == frame;
      if frame.Err? {
        FirstFailureCarries(frames, n + 1);
        return Err(frame.error);
      }
      FileFrameStates(dates[n], load);
      StatesAgreeAppend(table, frame.value);
      table := table + frame.value;
      n := n + 1;
    }
    assert FileFrames(dates, load)[..n] == FileFrames(dates, load);
    return Ok(table);
  }

  /**
   * `get_dataframe`: select the day files, then append each file's labelled
   * frame in selection order. A `ValueError` from the selection propagates;
   * so does the `KeyError` of the first file whose rows the classifier cannot
   * read; otherwise the result is the concatenation of the frames, and an
   * empty selection gives an empty table.
   */
  method GetDataframe(names: seq<string>, startDate: string, endDate: string, load: string -> seq<Cells>)
    returns (r: Result<seq<LabelledRow>, Raised>)
    ensures GetCsvFiles(names, startDate, endDate).Err? ==> r == Err(RaisedValueError(GetCsvFiles(names, startDate, endDate).error))
    ensures GetCsvFiles(names, startDate, endDate).Ok? ==>
      (r.Ok? <==> forall f :: f in GetCsvFiles(names, startDate, endDate).value ==> FileFrame(f, load).Ok?)
    ensures GetCsvFiles(names, startDate, endDate).Ok? && r.Err? ==>
      r == Err(RaisedKeyError(ConcatFrames(GetCsvFiles(names, startDate, endDate).value, load).error))
    ensures r.Ok? ==> r.value == ConcatFrames(GetCsvFiles(names, startDate, endDate).value, load).value
    ensures r.Ok? ==> StatesAgree(r.value)
    ensures GetCsvFiles(names, startDate, endDate) == Ok([]) ==> r == Ok([])
  {
    var selected := GetCsvFiles(names, startDate, endDate);
    if selected.Err? {
      return Err(RaisedValueError(selected.error));
    }
    var table := AppendFrames(selected.value, load);
    if table.Err? {
      return Err(RaisedKeyError(table.error));
    }
    return Ok(table.value);
  }
}

=== FILE: classifier.dfy ===
/**
 * The state classifier: an ordered list of rules over one row of signals,
 * evaluated first-match-wins, with `Empty` as the fallback.
 *
 * Priority, highest first: alarm, automatic running ("AUTO KJØRING"), feed
 * hold, setup ("OPPSETT"), empty. The rules overlap, so the order is part of
 * the behaviour.
 */
module Classifier {
  import opened Signals

  /** `v` is one of the two values the program treats as a binary reading. */
  predicate Binary(v: int) {
    v == 1 || v == 0
  }

  /** The alarm rule: the alarm flag is set. */
  predicate IsAlarm(row: SignalRow) {
    row.atmdAlarm == 1
  }

  /**
   * The automatic-running rule: MEM or TAPE is set, DEN2, SMZ, INP and AFC
   * all read 0, CUT or CXF is set, and STL and OP are both set.
   */
  predicate IsAutoRunning(row: SignalRow) {
    && (row.atmdMem == 1 || row.atmdTape == 1)
    && row.sgnlDen2 == 0
    && row.sgnlSmz == 0 && row.sgnlInp == 0 && row.sgnlAfc == 0
    && (row.sgnlCut == 1 || row.sgnlCxf == 1)
    && row.sgnlStl == 1 && row.sgnlOp == 1
  }

  /**
   * The feed-hold rule: memory or tape mode with SMZ, INP and AFC all set.
   * DEN2, CXF and OP are "don't care" but must still read 0 or 1.
   */
  predicate IsFeedHold(row: SignalRow) {
    && (row.atmdMem == 1 || row.atmdTape == 1)
    && Binary(row.sgnlDen2)
    && Binary(row.sgnlCxf)
    && row.sgnlSmz == 1 && row.sgnlInp == 1 && row.sgnlAfc == 1
    && Binary(row.sgnlOp)
  }

  /** One of MDI, NA3, RET, PTP, STEP, HAND and JOG is set. */
  predicate AnyModeFlag(row: SignalRow) {
    || row.atmdMdi == 1 || row.atmdNa3 == 1 || row.mnmdRet == 1 || row.mnmdPtp == 1
    || row.mnmdStep == 1 || row.mnmdHand == 1 || row.mnmdJog == 1
  }

  /** At least one of SMZ, INP and AFC is set. */
  predicate AnySmzInpAfc(row: SignalRow) {
    row.sgnlSmz == 1 || row.sgnlInp == 1 || row.sgnlAfc == 1
  }

  /** The setup rule: one of those seven flags together with SMZ, INP or AFC. */
  predicate IsSetup(row: SignalRow) {
    AnyModeFlag(row) && AnySmzInpAfc(row)
  }

  /** The rule that selects state `s`; the fallback `Empty` always applies. */
  predicate Guard(s: MachineState, row: SignalRow) {
    match s
    case Alarm => IsAlarm(row)
    case AutoRunning => IsAutoRunning(row)
    case FeedHold => IsFeedHold(row)
    case Setup => IsSetup(row)
    case Empty => true
  }

  /** Position of a state in the priority order; lower wins. */
  function Rank(s: MachineState): nat {
    match s
    case Alarm => 0
    case AutoRunning => 1
    case FeedHold => 2
    case Setup => 3
    case Empty => 4
  }

  /**
   * The classifier, as the program's if/elif chain. The result's rule holds
   * and no rule of higher priority does.
   */
  function Classify(row: SignalRow): (r: MachineState)
    ensures Guard(r, row)
    ensures forall t: MachineState :: Rank(t) < Rank(r) ==> !Guard(t, row)
  {
    if IsAlarm(row) then Alarm
    else if IsAutoRunning(row) then AutoRunning
    else if IsFeedHold(row) then FeedHold
    else if IsSetup(row) then Setup
    else Empty
  }

  /**
   * `Classify` is the only state that is the first to match: a state is the
   * result exactly when its rule holds and no higher-priority rule does.
   */
  lemma ClassifyIsFirstMatch(row: SignalRow, s: MachineState)
    ensures Classify(row) == s <==> Guard(s, row) && forall t: MachineState :: Rank(t) < Rank(s) ==> !Guard(t, row)
  {
  }

  /** The classifier falls through to `Empty` exactly when none of the four rules holds. */
  lemma ClassifyTotal(row: SignalRow)
    ensures Classify(row) == Empty <==> !IsAlarm(row) && !IsAutoRunning(row) && !IsFeedHold(row) && !IsSetup(row)
  {
  }

  /** A set alarm flag yields `Alarm` whatever the other signals read. */
  lemma AlarmOverrides(row: SignalRow)
    requires row.atmdAlarm == 1
    ensures Classify(row) == Alarm
  {
  }

  /**
   * Automatic running wins over setup only vacuously: no row matches both,
   * since one needs SMZ, INP and AFC all 0 and the other one of them at 1.
   * A row without alarm that meets the automatic-running rule is
   * `AutoRunning`, whatever its seven mode flags read.
   */
  lemma AutoRunningExcludesSetup(row: SignalRow)
    ensures !(IsAutoRunning(row) && IsSetup(row))
    ensures !IsAlarm(row) && IsAutoRunning(row) ==> Classify(row) == AutoRunning
  {
  }

  /** No row matches both the automatic-running and the feed-hold rule (SMZ reads 0 in one, 1 in the other). */
  lemma AutoRunningExcludesFeedHold(row: SignalRow)
    ensures !(IsAutoRunning(row) && IsFeedHold(row))
  {
  }

  /**
   * The feed-hold rule ignores DEN2, CXF and OP as long as each reads 0 or 1,
   * and fails as soon as one of them reads anything else.
   */
  lemma FeedHoldDontCares(row: SignalRow, den2: int, cxf: int, op: int)
    requires Binary(den2) && Binary(cxf) && Binary(op)
    ensures IsFeedHold(row.(sgnlDen2 := den2, sgnlCxf := cxf, sgnlOp := op))
        <==> (row.atmdMem == 1 || row.atmdTape == 1) && row.sgnlSmz == 1 && row.sgnlInp == 1 && row.sgnlAfc == 1
    ensures !Binary(row.sgnlDen2) || !Binary(row.sgnlCxf) || !Binary(row.sgnlOp) ==> !IsFeedHold(row)
  {
  }

  /**
   * Changing the don't-care signals of a feed-hold row within {0, 1} keeps it
   * a feed-hold row, even though CXF also feeds the automatic-running rule.
   */
  lemma FeedHoldStable(row: SignalRow, den2: int, cxf: int, op: int)
    requires Classify(row) == FeedHold
    requires Binary(den2) && Binary(cxf) && Binary(op)
    ensures Classify(row.(sgnlDen2 := den2, sgnlCxf := cxf, sgnlOp := op)) == FeedHold
  {
  }

  /** A mode flag with SMZ, INP or AFC set is `Setup` once the three earlier rules fail. */
  lemma SetupWhenEarlierRulesFail(row: SignalRow)
    requires AnyModeFlag(row) && AnySmzInpAfc(row)
    requires !IsAlarm(row) && !IsAutoRunning(row) && !IsFeedHold(row)
    ensures Classify(row) == Setup
  {
  }

  /** The rules of the program, in the order it tries them. */
  const SourceOrder: seq<MachineState> := [Alarm, AutoRunning, FeedHold, Setup]

  /** A first-match-wins evaluation of a rule list; `Empty` when nothing matches. */
  function FirstMatch(order: seq<MachineState>, row: SignalRow): (r: MachineState)
    requires Empty !in order
    ensures r == Empty <==> forall j :: 0 <= j < |order| ==> !Guard(order[j], row)
    ensures r != Empty ==> exists k :: 0 <= k < |order| && order[k] == r && Guard(r, row) && forall j :: 0 <= j < k ==> !Guard(order[j], row)
  {
    if |order| == 0 then Empty
    else if Guard(order[0], row) then order[0]
    else FirstMatch(order[1..], row)
  }

  /** The if/elif chain is the first-match evaluation of the rule list. */
  lemma ClassifyIsRuleList(row: SignalRow)
    ensures Classify(row) == FirstMatch(SourceOrder, row)
  {
    var o1, o2, o3: seq<MachineState> := [AutoRunning, FeedHold, Setup], [FeedHold, Setup], [Setup];
    assert SourceOrder[1..] == o1 && o1[1..] == o2 && o2[1..] == o3 && o3[1..] == [];
    assert FirstMatch(o3, row) == if IsSetup(row) then Setup else Empty;
    assert FirstMatch(o2, row) == if IsFeedHold(row) then FeedHold else FirstMatch(o3, row);
    assert FirstMatch(o1, row) == if IsAutoRunning(row) then AutoRunning else FirstMatch(o2, row);
  }

  /** Swapping the first two rules, when they can never both hold, does not change the result. */
  lemma SwapFrontRules(order: seq<MachineState>, row: SignalRow)
    requires 2 <= |order|
    requires Empty !in order
    requires !(Guard(order[0], row) && Guard(order[1], row))
    ensures FirstMatch([order[1], order[0]] + order[2..], row) == FirstMatch(order, row)
  {
    var swapped := [order[1], order[0]] + order[2..];
    assert swapped[0] == order[1] && swapped[1..] == [order[0]] + order[2..];
    assert swapped[1..][0] == order[0] && swapped[1..][1..] == order[2..];
    assert order[1..][0] == order[1] && order[1..][1..] == order[2..];
  }

  /** Swapping two adjacent rules that can never both hold does not change any result. */
  lemma {:induction false} SwapExclusiveRules(order: seq<MachineState>, i: nat, row: SignalRow)
    requires i + 1 < |order|
    requires Empty !in order
    requires !(Guard(order[i], row) && Guard(order[i + 1], row))
    ensures FirstMatch(order[..i] + [order[i + 1], order[i]] + order[i + 2..], row) == FirstMatch(order, row)
  {
    var swapped := order[..i] + [order[i + 1], order[i]] + order[i + 2..];
    if i == 0 {
      assert swapped == [order[1], order[0]] + order[2..];
      SwapFrontRules(order, row);
    } else {
      var tail := order[1..];
      assert tail[i - 1] == order[i] && tail[i] == order[i + 1];
      SwapExclusiveRules(tail, i - 1, row);
      assert swapped[0] == order[0];
      assert swapped[1..] == tail[..i - 1] + [tail[i], tail[i - 1]] + tail[i + 1..];
    }
  }

  /** Trying feed hold before automatic running gives the same classifier. */
  lemma AutoRunningFeedHoldOrderIrrelevant(row: SignalRow)
    ensures FirstMatch([Alarm, FeedHold, AutoRunning, Setup], row) == Classify(row)
  {
    AutoRunningExcludesFeedHold(row);
    SwapExclusiveRules(SourceOrder, 1, row);
    assert SourceOrder[..1] + [SourceOrder[2], SourceOrder[1]] + SourceOrder[3..] == [Alarm, FeedHold, AutoRunning, Setup];
    ClassifyIsRuleList(row);
  }

  /** Putting automatic running ahead of alarm changes the result of some row. */
  lemma AlarmMustPrecedeAutoRunning()
    ensures exists row :: FirstMatch([AutoRunning, Alarm, FeedHold, Setup], row) != Classify(row)
  {
    var row := Quiet.(atmdAlarm := 1, atmdMem := 1, sgnlCut := 1, sgnlStl := 1, sgnlOp := 1);
    assert IsAutoRunning(row);
    assert FirstMatch([AutoRunning, Alarm, FeedHold, Setup], row) == AutoRunning;
    assert Classify(row) == Alarm;
  }

  /** Putting setup ahead of feed hold changes the result of some row. */
  lemma FeedHoldMustPrecedeSetup()
    ensures exists row :: FirstMatch([Alarm, AutoRunning, Setup, FeedHold], row) != Classify(row)
  {
    var row := Quiet.(atmdMem := 1, atmdMdi := 1, sgnlSmz := 1, sgnlInp := 1, sgnlAfc := 1);
    var order := [Alarm, AutoRunning, Setup, FeedHold];
    assert !IsAlarm(row) && !IsAutoRunning(row) && IsSetup(row) && IsFeedHold(row);
    assert order[1..] == [AutoRunning, Setup, FeedHold];
    assert order[1..][1..] == [Setup, FeedHold];
    assert FirstMatch(order, row) == Setup;
    assert Classify(row) == FeedHold;
  }
}

=== FILE: columns.dfy ===
/**
 * The classifier as the program actually runs it: on a row whose cells are
 * looked up by column name, where looking up a column the file does not have
 * raises a `KeyError`.
 *
 * Python evaluates `and`, `or`, `all(...)` and `any(...)` left to right and
 * stops as soon as the outcome is known, so a missing column only raises when
 * the evaluation actually reaches it. The rule conditions are therefore kept
 * as small expression trees and evaluated with that short-circuit order.
 */
module Columns {
  import opened Wrappers
  import opened Signals
  import opened Classifier

  /** The `KeyError` raised by looking up a column the row does not have. */
  datatype KeyError = MissingColumn(column: Column)

  /** A rule condition: comparisons of one column with a constant, joined by `and`/`or`. */
  datatype Cond =
    | Equals(column: Column, value: int)
    | And(left: Cond, right: Cond)
    | Or(left: Cond, right: Cond)
    | Const(b: bool)

  /** The columns a condition mentions. */
  function ColumnsOf(c: Cond): set<Column> {
    match c
    case Equals(col, _) => {col}
    case And(l, r) => ColumnsOf(l) + ColumnsOf(r)
    case Or(l, r) => ColumnsOf(l) + ColumnsOf(r)
    case Const(_) => {}
  }

  /**
   * Python's short-circuit evaluation of a condition on the cells of a row.
   * It can only fail on a column the condition mentions and the row lacks,
   * and it cannot fail when the row has every column the condition mentions.
   */
  function Eval(c: Cond, cells: Cells): (r: Result<bool, KeyError>)
    ensures r.Err? ==> r.error.column in ColumnsOf(c) && r.error.column !in cells
    ensures ColumnsOf(c) <= cells.Keys ==> r.Ok?
    ensures (c.And? || c.Or?) && Eval(c.left, cells).Err? ==> r == Eval(c.left, cells)
    ensures c.And? && Eval(c.left, cells) == Ok(false) ==> r == Ok(false)
    ensures c.Or? && Eval(c.left, cells) == Ok(true) ==> r == Ok(true)
    ensures c.And? && Eval(c.left, cells) == Ok(true) ==> r == Eval(c.right, cells)
    ensures c.Or? && Eval(c.left, cells) == Ok(false) ==> r == Eval(c.right, cells)
    ensures c.Equals? && c.column !in cells ==> r == Err(MissingColumn(c.column))
  {
    match c
    case Equals(col, v) =>
      if col in cells then Ok(cells[col] == v) else Err(MissingColumn(col))
    case And(l, r) =>
      var first := Eval(l, cells);
      if first.Err? then first
      else if first.value then Eval(r, cells) else Ok(false)
    case Or(l, r) =>
      var first := Eval(l, cells);
      if first.Err? then first
      else if first.value then Ok(true) else Eval(r, cells)
    case Const(b) => Ok(b)
  }

  /** The truth of a condition on a complete record, where no lookup can fail. */
  predicate Holds(c: Cond, row: SignalRow) {
    match c
    case Equals(col, v) => Signal(row, col) == v
    case And(l, r) => Holds(l, row) && Holds(r, row)
    case Or(l, r) => Holds(l, row) || Holds(r, row)
    case Const(b) => b
  }

  /** `all(df[col] == v for col in cols)`. */
  function AllEqual(cols: seq<Column>, v: int): Cond {
    if |cols| == 0 then Const(true) else And(Equals(cols[0], v), AllEqual(cols[1..], v))
  }

  /** `any(df[col] == v for col in cols)`. */
  function AnyEqual(cols: seq<Column>, v: int): Cond {
    if |cols| == 0 then Const(false) else Or(Equals(cols[0], v), AnyEqual(cols[1..], v))
  }

  /** `df['ATMD_MEM'] == 1 or df['ATMD_TAPE'] == 1`. */
  const MemoryOrTape: Cond := Or(Equals(AtmdMem, 1), Equals(AtmdTape, 1))

  /** `df[col] == 1 or df[col] == 0`: a don't-care clause. */
  function EitherBit(col: Column): Cond {
    Or(Equals(col, 1), Equals(col, 0))
  }

  /** The operating-mode flags the setup rule looks at. */
  const ModeColumns: seq<Column> := [AtmdMdi, AtmdNa3, MnmdRet, MnmdPtp, MnmdStep, MnmdHand, MnmdJog]

  /** The columns SMZ, INP and AFC, tested together by three of the rules. */
  const SmzInpAfcColumns: seq<Column> := [SgnlSmz, SgnlInp, SgnlAfc]

  const AlarmRule: Cond := Equals(AtmdAlarm, 1)

  /**
   * The automatic-running condition. Python evaluates `a and b and c` left to
   * right and stops at the first false operand, as the left-nested tree does.
   */
  const AutoRunningRule: Cond :=
    And(And(And(And(
      MemoryOrTape,
      Equals(SgnlDen2, 0)),
      AllEqual(SmzInpAfcColumns, 0)),
      Or(Equals(SgnlCut, 1), Equals(SgnlCxf, 1))),
      AllEqual([SgnlStl, SgnlOp], 1))

  /** The feed-hold condition, with its don't-care clauses. */
  const FeedHoldRule: Cond :=
    And(And(And(And(
      MemoryOrTape,
      EitherBit(SgnlDen2)),
      EitherBit(SgnlCxf)),
      AllEqual(SmzInpAfcColumns, 1)),
      EitherBit(SgnlOp))

  const SetupRule: Cond := And(AnyEqual(ModeColumns, 1), AnyEqual(SmzInpAfcColumns, 1))

  /**
   * The program's classifier on the cells of one row. It fails only with a
   * column the row lacks, and a row that has every column never fails.
   */
  function ClassifyCells(cells: Cells): (r: Result<MachineState, KeyError>)
    ensures r.Err? ==> r.error.column !in cells
    ensures Complete(cells) ==> r.Ok?
  {
    var alarm :- Eval(AlarmRule, cells);
    if alarm then Ok(Alarm)
    else
      var running :- Eval(AutoRunningRule, cells);
      if running then Ok(AutoRunning)
      else
        var held :- Eval(FeedHoldRule, cells);
        if held then Ok(FeedHold)
        else
          var setup :- Eval(SetupRule, cells);
          if setup then Ok(Setup) else Ok(Empty)
  }

  /** On a complete row, evaluation succeeds with the condition's truth on the record. */
  lemma {:induction false} EvalComplete(c: Cond, cells: Cells)
    requires Complete(cells)
    ensures Eval(c, cells) == Ok(Holds(c, RowOf(cells)))
  {
    match c
    case Equals(col, v) =>
    case And(l, r) =>
      EvalComplete(l, cells);
      EvalComplete(r, cells);
    case Or(l, r) =>
      EvalComplete(l, cells);
      EvalComplete(r, cells);
    case Const(_) =>
  }

  /** The alarm tree is the alarm rule. */
  lemma AlarmRuleMeaning(row: SignalRow)
    ensures Holds(AlarmRule, row) == IsAlarm(row)
  {
  }

  /** A five-clause `and` chain, grouped as Python groups it, holds when every clause does. */
  lemma ChainHolds(p0: Cond, p1: Cond, p2: Cond, p3: Cond, p4: Cond, row: SignalRow)
    ensures Holds(And(And(And(And(p0, p1), p2), p3), p4), row)
        == (Holds(p0, row) && Holds(p1, row) && Holds(p2, row) && Holds(p3, row) && Holds(p4, row))
  {
    assert Holds(And(And(And(p0, p1), p2), p3), row) == (Holds(And(And(p0, p1), p2), row) && Holds(p3, row));
    assert Holds(And(And(p0, p1), p2), row) == (Holds(And(p0, p1), row) && Holds(p2, row));
  }

  /** The automatic-running tree is the automatic-running rule. */
  lemma AutoRunningRuleMeaning(row: SignalRow)
    ensures Holds(AutoRunningRule, row) == IsAutoRunning(row)
  {
    var p0, p1, p2 := MemoryOrTape, Equals(SgnlDen2, 0), AllEqual(SmzInpAfcColumns, 0);
    var p3, p4 := Or(Equals(SgnlCut, 1), Equals(SgnlCxf, 1)), AllEqual([SgnlStl, SgnlOp], 1);
    assert Holds(p0, row) == (row.atmdMem == 1 || row.atmdTape == 1) by {}
    assert Holds(p1, row) == (row.sgnlDen2 == 0) by {}
    assert Holds(p3, row) == (row.sgnlCut == 1 || row.sgnlCxf == 1) by {}
    assert Holds(p2, row) == (row.sgnlSmz == 0 && row.sgnlInp == 0 && row.sgnlAfc == 0) by {
      AllEqualHolds(SmzInpAfcColumns, 0, row);
    }
    assert Holds(p4, row) == (row.sgnlStl == 1 && row.sgnlOp == 1) by {
      AllEqualHolds([SgnlStl, SgnlOp], 1, row);
    }
    assert Holds(AutoRunningRule, row) == (Holds(p0, row) && Holds(p1, row) && Holds(p2, row) && Holds(p3, row) && Holds(p4, row)) by {
      ChainHolds(p0, p1, p2, p3, p4, row);
    }
  }

  /** The feed-hold tree is the feed-hold rule, don't-care clauses included. */
  lemma FeedHoldRuleMeaning(row: SignalRow)
    ensures Holds(FeedHoldRule, row) == IsFeedHold(row)
  {
    var p0, p1, p2 := MemoryOrTape, EitherBit(SgnlDen2), EitherBit(SgnlCxf);
    var p3, p4 := AllEqual(SmzInpAfcColumns, 1), EitherBit(SgnlOp);
    assert Holds(p0, row) == (row.atmdMem == 1 || row.atmdTape == 1) by {}
    assert Holds(p1, row) == Binary(row.sgnlDen2) by {}
    assert Holds(p2, row) == Binary(row.sgnlCxf) by {}
    assert Holds(p4, row) == Binary(row.sgnlOp) by {}
    assert Holds(FeedHoldRule, row) == (Holds(p0, row) && Holds(p1, row) && Holds(p2, row) && Holds(p3, row) && Holds(p4, row)) by {
      ChainHolds(p0, p1, p2, p3, p4, row);
    }
    assert Holds(p3, row) == (row.sgnlSmz == 1 && row.sgnlInp == 1 && row.sgnlAfc == 1) by {
      AllEqualHolds(SmzInpAfcColumns, 1, row);
    }
  }

  /** The `any` over the seven mode flags holds exactly when one of them is set. */
  lemma ModeTreeMeaning(row: SignalRow)
    ensures Holds(AnyEqual(ModeColumns, 1), row) == AnyModeFlag(row)
  {
    AnyEqualHolds(ModeColumns, 1, row);
    assert SignalsAt(row, ModeColumns) == [row.atmdMdi, row.atmdNa3, row.mnmdRet, row.mnmdPtp, row.mnmdStep, row.mnmdHand, row.mnmdJog];
  }

  /** The `any` over SMZ, INP and AFC holds exactly when one of them is set. */
  lemma SmzInpAfcTreeMeaning(row: SignalRow)
    ensures Holds(AnyEqual(SmzInpAfcColumns, 1), row) == AnySmzInpAfc(row)
  {
    AnyEqualHolds(SmzInpAfcColumns, 1, row);
    assert SignalsAt(row, SmzInpAfcColumns) == [row.sgnlSmz, row.sgnlInp, row.sgnlAfc];
  }

  /** The setup tree is the setup rule. */
  lemma SetupRuleMeaning(row: SignalRow)
    ensures Holds(SetupRule, row) == IsSetup(row)
  {
    ModeTreeMeaning(row);
    SmzInpAfcTreeMeaning(row);
  }

  /** `AllEqual` holds exactly when every listed column has the value. */
  lemma {:induction false} AllEqualHolds(cols: seq<Column>, v: int, row: SignalRow)
    ensures Holds(AllEqual(cols, v), row) <==> forall i :: 0 <= i < |cols| ==> Signal(row, cols[i]) == v
  {
    if |cols| > 0 {
      AllEqualHolds(cols[1..], v, row);
      assert forall i :: 1 <= i < |cols| ==> cols[i] == cols[1..][i - 1];
    }
  }

  /** The values a row holds in the listed columns, in order. */
  function SignalsAt(row: SignalRow, cols: seq<Column>): (r: seq<int>)
    ensures |r| == |cols|
    ensures forall i :: 0 <= i < |cols| ==> r[i] == Signal(row, cols[i])
  {
    seq(|cols|, i requires 0 <= i < |cols| => Signal(row, cols[i]))
  }

  /** `AnyEqual` holds exactly when some listed column has the value. */
  lemma {:induction false} AnyEqualHolds(cols: seq<Column>, v: int, row: SignalRow)
    ensures Holds(AnyEqual(cols, v), row) <==> v in SignalsAt(row, cols)
  {
    if |cols| > 0 {
      AnyEqualHolds(cols[1..], v, row);
      assert SignalsAt(row, cols) == [Signal(row, cols[0])] + SignalsAt(row, cols[1..]);
    }
  }

  /** On a row with every column, the program's classifier is `Classify` on the record. */
  lemma ClassifyCellsComplete(cells: Cells)
    requires Complete(cells)
    ensures ClassifyCells(cells) == Ok(Classify(RowOf(cells)))
  {
    var row := RowOf(cells);
    AlarmRuleMeaning(row);
    AutoRunningRuleMeaning(row);
    FeedHoldRuleMeaning(row);
    SetupRuleMeaning(row);
    EvalComplete(AlarmRule, cells);
    EvalComplete(AutoRunningRule, cells);
    EvalComplete(FeedHoldRule, cells);
    EvalComplete(SetupRule, cells);
  }

  /** `bigger` has every cell of `cells`, with the same value. */
  predicate Extends(bigger: Cells, cells: Cells) {
    forall col :: col in cells ==> col in bigger && bigger[col] == cells[col]
  }

  /** A successful evaluation only read cells that any larger row also has. */
  lemma {:induction false} EvalExtends(c: Cond, cells: Cells, bigger: Cells)
    requires Eval(c, cells).Ok?
    requires Extends(bigger, cells)
    ensures Eval(c, bigger) == Eval(c, cells)
  {
    match c
    case Equals(col, v) =>
    case And(l, r) =>
      EvalExtends(l, cells, bigger);
      if Eval(l, cells).value {
        EvalExtends(r, cells, bigger);
      }
    case Or(l, r) =>
      EvalExtends(l, cells, bigger);
      if !Eval(l, cells).value {
        EvalExtends(r, cells, bigger);
      }
    case Const(_) =>
  }

  /** A state the program computes despite missing columns stays the same once they are supplied. */
  lemma ClassifyCellsExtends(cells: Cells, bigger: Cells)
    requires ClassifyCells(cells).Ok?
    requires Extends(bigger, cells)
    ensures ClassifyCells(bigger) == ClassifyCells(cells)
  {
    EvalExtends(AlarmRule, cells, bigger);
    if !Eval(AlarmRule, cells).value {
      EvalExtends(AutoRunningRule, cells, bigger);
      if !Eval(AutoRunningRule, cells).value {
        EvalExtends(FeedHoldRule, cells, bigger);
        if !Eval(FeedHoldRule, cells).value {
          EvalExtends(SetupRule, cells, bigger);
        }
      }
    }
  }

  /**
   * A missing column never turns into a default state: whenever the program
   * does produce a state, every completion of the row classifies to it.
   */
  lemma NoSilentDefault(cells: Cells, full: Cells)
    requires ClassifyCells(cells).Ok?
    requires Extends(full, cells) && Complete(full)
    ensures ClassifyCells(cells).value == Classify(RowOf(full))
  {
    ClassifyCellsExtends(cells, full);
    ClassifyCellsComplete(full);
  }

  /** A set alarm flag is enough: no other column is looked up. */
  lemma AlarmNeedsOnlyItsColumn(cells: Cells)
    requires AtmdAlarm in cells && cells[AtmdAlarm] == 1
    ensures ClassifyCells(cells) == Ok(Alarm)
  {
  }

  /** Without an alarm column every row raises, naming that column. */
  lemma MissingAlarmColumnRaises(cells: Cells)
    requires AtmdAlarm !in cells
    ensures ClassifyCells(cells) == Err(MissingColumn(AtmdAlarm))
  {
  }

  /** `any(...)` over present columns none of which reads `v` is false. */
  lemma {:induction false} AnyEqualNone(cols: seq<Column>, v: int, cells: Cells)
    requires forall i :: 0 <= i < |cols| ==> cols[i] in cells && cells[cols[i]] != v
    ensures Eval(AnyEqual(cols, v), cells) == Ok(false)
  {
    if |cols| > 0 {
      AnyEqualNone(cols[1..], v, cells);
    }
  }

  /** The alarm flag, MEM, TAPE and the seven mode flags: the columns an idle row reaches. */
  const IdleColumns: set<Column> :=
    {AtmdAlarm, AtmdMem, AtmdTape, AtmdMdi, AtmdNa3, MnmdRet, MnmdPtp, MnmdStep, MnmdHand, MnmdJog}

  /**
   * A row whose alarm, MEM, TAPE and mode flags all read 0 is `Empty`
   * whatever else it has or lacks: the `or` of MEM and TAPE stops automatic
   * running and feed hold, and the mode flags stop setup, before DEN2, SMZ,
   * INP, AFC, CUT, CXF, STL or OP is looked up.
   */
  lemma IdleRowNeedsTenColumns(cells: Cells)
    requires IdleColumns <= cells.Keys
    requires forall col :: col in IdleColumns ==> cells[col] == 0
    ensures ClassifyCells(cells) == Ok(Empty)
  {
    assert forall i :: 0 <= i < |ModeColumns| ==> ModeColumns[i] in IdleColumns;
    assert Eval(AlarmRule, cells) == Ok(false);
    assert Eval(MemoryOrTape, cells) == Ok(false);
    var a := And(MemoryOrTape, Equals(SgnlDen2, 0));
    var b := And(a, AllEqual(SmzInpAfcColumns, 0));
    var c := And(b, Or(Equals(SgnlCut, 1), Equals(SgnlCxf, 1)));
    assert Eval(a, cells) == Ok(false);
    assert Eval(b, cells) == Ok(false);
    assert Eval(c, cells) == Ok(false);
    assert Eval(AutoRunningRule, cells) == Ok(false);
    var d := And(MemoryOrTape, EitherBit(SgnlDen2));
    var e := And(d, EitherBit(SgnlCxf));
    var f := And(e, AllEqual(SmzInpAfcColumns, 1));
    assert Eval(d, cells) == Ok(false);
    assert Eval(e, cells) == Ok(false);
    assert Eval(f, cells) == Ok(false);
    assert Eval(FeedHoldRule, cells) == Ok(false);
    AnyEqualNone(ModeColumns, 1, cells);
    assert Eval(SetupRule, cells) == Ok(false);
  }

  /** The `all(...)` over SMZ, INP and AFC reaches a missing INP when SMZ reads 0. */
  lemma SmzInpAfcReachesInp(cells: Cells, v: int)
    requires SgnlSmz in cells && cells[SgnlSmz] == v && SgnlInp !in cells
    ensures Eval(AllEqual(SmzInpAfcColumns, v), cells) == Err(MissingColumn(SgnlInp))
  {
    assert SmzInpAfcColumns[1..] == [SgnlInp, SgnlAfc];
    assert AllEqual([SgnlInp, SgnlAfc], v) == And(Equals(SgnlInp, v), AllEqual([SgnlAfc], v));
  }

  /** The automatic-running rule reaches a missing INP after MEM, DEN2 and SMZ pass. */
  lemma AutoRunningReachesInp(cells: Cells)
    requires AtmdMem in cells && cells[AtmdMem] == 1
    requires SgnlDen2 in cells && cells[SgnlDen2] == 0
    requires SgnlSmz in cells && cells[SgnlSmz] == 0
    requires SgnlInp !in cells
    ensures Eval(AutoRunningRule, cells) == Err(MissingColumn(SgnlInp))
  {
    assert Eval(MemoryOrTape, cells) == Ok(true);
    var a := And(MemoryOrTape, Equals(SgnlDen2, 0));
    assert Eval(a, cells) == Ok(true);
    SmzInpAfcReachesInp(cells, 0);
    var b := And(a, AllEqual(SmzInpAfcColumns, 0));
    assert Eval(b, cells) == Err(MissingColumn(SgnlInp));
    var c := And(b, Or(Equals(SgnlCut, 1), Equals(SgnlCxf, 1)));
    assert Eval(c, cells) == Err(MissingColumn(SgnlInp));
  }

  /**
   * A row without alarm in memory mode, with DEN2 and SMZ at 0 but no INP
   * column, reaches INP in the `all(...)` of the automatic-running rule and
   * raises `KeyError('SGNL_INP')`, whatever the other columns read.
   */
  lemma ReachedMissingColumnRaises(cells: Cells)
    requires AtmdAlarm in cells && cells[AtmdAlarm] == 0
    requires AtmdMem in cells && cells[AtmdMem] == 1
    requires SgnlDen2 in cells && cells[SgnlDen2] == 0
    requires SgnlSmz in cells && cells[SgnlSmz] == 0
    requires SgnlInp !in cells
    ensures ClassifyCells(cells) == Err(MissingColumn(SgnlInp))
  {
    assert Eval(AlarmRule, cells) == Ok(false);
    AutoRunningReachesInp(cells);
  }
}

=== FILE: datefilter.dfy ===
/**
 * Selection of the day files to load (`get_csv_files`): names ending in
 * `.csv` whose stem, read with `int()`, lies between the start and end dates
 * with their dashes removed, bounds included.
 *
 * The directory listing is a parameter: the model receives the names in the
 * order the listing produced them. A stem or date that `int()` rejects raises
 * `ValueError` out of the whole selection; nothing is skipped. Because Python
 * evaluates the range test `stem >= start and stem <= end` lazily, a date is
 * only parsed once some file reaches the comparison that needs it.
 */
module DateFilter {
  import opened Wrappers
  import opened Text

  /** The `ValueError` that `int()` raises on a text that is not an integer literal. */
  datatype ValueError = InvalidLiteral(text: string)

  const Extension: string := ".csv"

  /** `file.endswith('.csv')`. */
  predicate IsCsv(name: string) {
    EndsWith(name, Extension)
  }

  /** `file.replace('.csv', '')`: every occurrence goes, not only the trailing one. */
  function Stem(name: string): string {
    RemoveAll(name, Extension)
  }

  /** `date.replace('-', '')`: no dash is left, and a date without dashes is kept as it is. */
  function DateKey(date: string): (r: string)
    ensures forall i :: 0 <= i < |r| ==> r[i] != '-'
    ensures (forall i :: 0 <= i < |date| ==> date[i] != '-') ==> r == date
  {
    assert "-" == ['-'];
    RemoveAllChar(date, '-');
    assert (forall i :: 0 <= i < |date| ==> date[i] != '-') ==> RemoveAll(date, "-") == date by {
      if forall i :: 0 <= i < |date| ==> date[i] != '-' {
        RemoveAllAbsent(date, "-");
      }
    }
    RemoveAll(date, "-")
  }

  /** `int(s)`, raising `ValueError` on a bad literal. */
  function ToInt(s: string): (r: Result<int, ValueError>)
    ensures r.Ok? <==> ParseInt(s).Some?
    ensures r.Ok? ==> r.value == ParseInt(s).value
    ensures r.Err? ==> r.error == InvalidLiteral(s)
  {
    match ParseInt(s)
    case Some(v) => Ok(v)
    case None => Err(InvalidLiteral(s))
  }

  /** Names ending in `.csv`, in listing order. */
  function CsvFiles(names: seq<string>): (r: seq<string>)
    ensures forall f :: f in r <==> f in names && IsCsv(f)
  {
    if |names| == 0 then []
    else if IsCsv(names[0]) then [names[0]] + CsvFiles(names[1..])
    else CsvFiles(names[1..])
  }

  /** The stem and both bounds are integers and the stem lies between the bounds. */
  predicate Within(name: string, start: string, end: string) {
    && ParseInt(Stem(name)).Some?
    && ParseInt(start).Some?
    && ParseInt(end).Some?
    && ParseInt(start).value <= ParseInt(Stem(name)).value <= ParseInt(end).value
  }

  /** The text that made an evaluation raise: one of the texts it reads, and not an integer. */
  predicate Culprit(e: ValueError, files: seq<string>, start: string, end: string) {
    && ParseInt(e.text).None?
    && (e.text == start || e.text == end || exists f :: f in files && e.text == Stem(f))
  }

  /**
   * The range test of one file, evaluated as Python does:
   * `int(stem) >= int(start) and int(stem) <= int(end)`.
   */
  function InRange(name: string, start: string, end: string): (r: Result<bool, ValueError>)
    ensures r == Ok(true) <==> Within(name, start, end)
    ensures r.Err? ==> Culprit(r.error, [name], start, end)
    ensures ParseInt(Stem(name)).None? ==> r == Err(InvalidLiteral(Stem(name)))
    ensures ParseInt(Stem(name)).Some? && ParseInt(start).None? ==> r == Err(InvalidLiteral(start))
    ensures ParseInt(Stem(name)).Some? && ParseInt(start).Some? && ParseInt(Stem(name)).value < ParseInt(start).value
      ==> r == Ok(false)
    ensures ReachesEnd(name, start) && ParseInt(end).None? ==> r == Err(InvalidLiteral(end))
  {
    var stem :- ToInt(Stem(name));
    var lo :- ToInt(start);
    if !(stem >= lo) then Ok(false)
    else
      var hi :- ToInt(end);
      Ok(stem <= hi)
  }

  /** The stem and the start parse and the stem is at least the start, so `int(end)` is evaluated. */
  predicate ReachesEnd(name: string, start: string) {
    ParseInt(Stem(name)).Some? && ParseInt(start).Some? && ParseInt(Stem(name)).value >= ParseInt(start).value
  }

  /** The list comprehension that keeps the files in range, raising on the first bad text. */
  function RangeFilter(files: seq<string>, start: string, end: string): (r: Result<seq<string>, ValueError>)
    ensures r.Ok? ==> forall f :: f in r.value <==> f in files && Within(f, start, end)
    ensures r.Err? ==> Culprit(r.error, files, start, end)
    ensures (exists f :: f in files && ParseInt(Stem(f)).None?) ==> r.Err?
    ensures |files| > 0 && ParseInt(start).None? ==> r.Err?
    ensures ParseInt(end).None? && (exists f :: f in files && ReachesEnd(f, start)) ==> r.Err?
  {
    if |files| == 0 then Ok([])
    else
      var keep :- InRange(files[0], start, end);
      var rest :- RangeFilter(files[1..], start, end);
      assert forall f :: f in files <==> f == files[0] || f in files[1..];
      Ok(if keep then [files[0]] + rest else rest)
  }

  /** `get_csv_files`: the `.csv` names whose day lies in the inclusive date range. */
  function GetCsvFiles(names: seq<string>, startDate: string, endDate: string): (r: Result<seq<string>, ValueError>)
    ensures r.Ok? ==> forall f :: f in r.value <==> f in names && IsCsv(f) && Within(f, DateKey(startDate), DateKey(endDate))
    ensures r.Err? ==> ParseInt(r.error.text).None?
    ensures (exists f :: f in names && IsCsv(f) && ParseInt(Stem(f)).None?) ==> r.Err?
    ensures (exists f :: f in names && IsCsv(f)) && ParseInt(DateKey(startDate)).None? ==> r.Err?
    ensures ParseInt(DateKey(endDate)).None? && (exists f :: f in names && IsCsv(f) && ReachesEnd(f, DateKey(startDate)))
      ==> r.Err?
  {
    RangeFilter(CsvFiles(names), DateKey(startDate), DateKey(endDate))
  }

  /** A `.csv` name whose stem is an integer day between `lo` and `hi`. */
  predicate Kept(f: string, lo: int, hi: int) {
    IsCsv(f) && ParseInt(Stem(f)).Some? && lo <= ParseInt(Stem(f)).value <= hi
  }

  /** The reference selection over integer bounds, as a plain order-keeping filter. */
  function Selection(names: seq<string>, lo: int, hi: int): seq<string> {
    if |names| == 0 then []
    else (if Kept(names[0], lo, hi) then [names[0]] else []) + Selection(names[1..], lo, hi)
  }

  /**
   * When both dates and every `.csv` stem are integers, `get_csv_files`
   * succeeds with exactly the reference selection, in listing order.
   */
  lemma {:induction false} GetCsvFilesIsSelection(names: seq<string>, startDate: string, endDate: string, lo: int, hi: int)
    requires ParseInt(DateKey(startDate)) == Some(lo)
    requires ParseInt(DateKey(endDate)) == Some(hi)
    requires forall i :: 0 <= i < |names| && IsCsv(names[i]) ==> ParseInt(Stem(names[i])).Some?
    ensures GetCsvFiles(names, startDate, endDate) == Ok(Selection(names, lo, hi))
  {
    if |names| > 0 {
      assert forall i :: 0 <= i < |names| - 1 ==> names[1..][i] == names[i + 1];
      GetCsvFilesIsSelection(names[1..], startDate, endDate, lo, hi);
      var f := names[0];
      if IsCsv(f) {
        var csv := CsvFiles(names);
        assert csv == [f] + CsvFiles(names[1..]);
        assert csv[0] == f && csv[1..] == CsvFiles(names[1..]);
        var v := ParseInt(Stem(f)).value;
        var start, end := DateKey(startDate), DateKey(endDate);
        assert InRange(f, start, end) == Ok(lo <= v <= hi);
        var rest := Selection(names[1..], lo, hi);
        assert RangeFilter(csv[1..], start, end) == Ok(rest);
        assert RangeFilter(csv, start, end) == Ok(if lo <= v <= hi then [f] + rest else rest);
        assert [] + rest == rest;
      } else {
        assert [] + Selection(names[1..], lo, hi) == Selection(names[1..], lo, hi);
      }
    }
  }

  /** A stem `int()` rejects makes the whole selection raise; the file is not skipped. */
  lemma BadStemRaises(names: seq<string>, startDate: string, endDate: string, name: string)
    requires name in names && IsCsv(name) && ParseInt(Stem(name)).None?
    ensures GetCsvFiles(names, startDate, endDate).Err?
  {
  }

  /** A start date `int()` rejects makes the selection raise as soon as there is a `.csv` name. */
  lemma BadStartRaises(names: seq<string>, startDate: string, endDate: string, name: string)
    requires name in names && IsCsv(name) && ParseInt(DateKey(startDate)).None?
    ensures GetCsvFiles(names, startDate, endDate).Err?
  {
  }

  /**
   * An end date `int()` rejects makes the selection raise once a `.csv` name
   * whose stem parses reaches the start.
   */
  lemma BadEndRaises(names: seq<string>, startDate: string, endDate: string, name: string)
    requires name in names && IsCsv(name) && ReachesEnd(name, DateKey(startDate))
    requires ParseInt(DateKey(endDate)).None?
    ensures GetCsvFiles(names, startDate, endDate).Err?
  {
  }

  /** Without a `.csv` name nothing is parsed, so even malformed dates give an empty selection. */
  lemma {:induction false} NoCsvSelectsNothing(names: seq<string>, startDate: string, endDate: string)
    requires forall f :: f in names ==> !IsCsv(f)
    ensures GetCsvFiles(names, startDate, endDate) == Ok([])
  {
    if |names| > 0 {
      assert forall f :: f in names[1..] ==> f in names;
      NoCsvSelectsNothing(names[1..], startDate, endDate);
    }
  }

  /** Files whose day falls before the start are dropped without reading the end date. */
  lemma {:induction false} RangeFilterBelowStart(files: seq<string>, start: string, end: string, lo: int)
    requires ParseInt(start) == Some(lo)
    requires forall f :: f in files ==> ParseInt(Stem(f)).Some? && ParseInt(Stem(f)).value < lo
    ensures RangeFilter(files, start, end) == Ok([])
  {
    if |files| > 0 {
      assert files[0] in files;
      assert forall f :: f in files[1..] ==> f in files;
      RangeFilterBelowStart(files[1..], start, end, lo);
    }
  }

  /**
   * When every `.csv` day lies before the start, the selection is empty even
   * if the end date is no integer: `and` never reaches `int(end)`.
   */
  lemma EndDateUnreadBelowStart(names: seq<string>, startDate: string, endDate: string, lo: int)
    requires ParseInt(DateKey(startDate)) == Some(lo)
    requires forall f :: f in names && IsCsv(f) ==> ParseInt(Stem(f)).Some? && ParseInt(Stem(f)).value < lo
    ensures GetCsvFiles(names, startDate, endDate) == Ok([])
  {
    RangeFilterBelowStart(CsvFiles(names), DateKey(startDate), DateKey(endDate), lo);
  }

  /** A day file `YYYYMMDD.csv` is a `.csv` name whose stem is its digits. */
  lemma DayFileStem(digits: string)
    requires AllDigits(digits)
    ensures IsCsv(digits + Extension)
    ensures Stem(digits + Extension) == digits
  {
    var name := digits + Extension;
    assert name[|name| - |Extension|..] == Extension;
    assert forall i :: 0 <= i < |digits| ==> digits[i] != Extension[0] by {
      assert Extension[0] == '.';
    }
    RemoveTrailing(digits, Extension);
  }

  /** Removing the dashes of `Y-M-D` joins the three parts. */
  lemma DateKeyOfDashed(y: string, m: string, d: string)
    requires forall i :: 0 <= i < |y| ==> y[i] != '-'
    requires forall i :: 0 <= i < |m| ==> m[i] != '-'
    requires forall i :: 0 <= i < |d| ==> d[i] != '-'
    ensures DateKey(y + "-" + m + "-" + d) == y + m + d
  {
    RemoveAllAbsent(d, "-");
    RemoveAllSplit(m, '-', d);
    assert m + "-" + d == m + ['-'] + d;
    RemoveAllSplit(y, '-', m + "-" + d);
    assert y + "-" + m + "-" + d == y + ['-'] + (m + "-" + d);
  }

  /** The example's file names and their stems. */
  lemma ExampleFiles()
    ensures IsCsv("20240103.csv") && Stem("20240103.csv") == "20240103"
    ensures IsCsv("20240105.csv") && Stem("20240105.csv") == "20240105"
    ensures IsCsv("20240110.csv") && Stem("20240110.csv") == "20240110"
  {
    DayFileStem("20240103");
    DayFileStem("20240105");
    DayFileStem("20240110");
    assert "20240103" + Extension == "20240103.csv";
    assert "20240105" + Extension == "20240105.csv";
    assert "20240110" + Extension == "20240110.csv";
  }

  /** The example's dates with their dashes removed. */
  lemma ExampleKeys()
    ensures DateKey("2024-01-03") == "20240103"
    ensures DateKey("2024-01-09") == "20240109"
  {
    DateKeyOfDashed("2024", "01", "03");
    assert "2024" + "-" + "01" + "-" + "03" == "2024-01-03";
    assert "2024" + "01" + "03" == "20240103";
    DateKeyOfDashed("2024", "01", "09");
    assert "2024" + "-" + "01" + "-" + "09" == "2024-01-09";
    assert "2024" + "01" + "09" == "20240109";
  }

  /** The example's day numbers. */
  lemma ExampleValues()
    ensures ParseInt("20240103") == Some(20240103)
    ensures ParseInt("20240105") == Some(20240105)
    ensures ParseInt("20240109") == Some(20240109)
    ensures ParseInt("20240110") == Some(20240110)
  {
    EightDigits("20240103");
    EightDigits("20240105");
    EightDigits("20240109");
    EightDigits("20240110");
  }

  /**
   * Three day files whose stems all parse, the first two in range and the
   * third not: the reference selection keeps the first two.
   */
  lemma ThreeDaySelection(names: seq<string>, lo: int, hi: int)
    requires |names| == 3
    requires Kept(names[0], lo, hi) && Kept(names[1], lo, hi)
    requires !Kept(names[2], lo, hi) && ParseInt(Stem(names[2])).Some?
    ensures forall i :: 0 <= i < |names| ==> ParseInt(Stem(names[i])).Some?
    ensures Selection(names, lo, hi) == names[..2]
  {
    var a, b, c := names[0], names[1], names[2];
    assert [c][1..] == [];
    assert Selection([c], lo, hi) == [];
    assert [b, c][1..] == [c];
    assert Selection([b, c], lo, hi) == [b];
    assert names == [a, b, c] && names[1..] == [b, c];
  }

  /** Of the example's files, the first two lie between the two days and the third after them. */
  lemma ExampleKept(a: string, b: string, c: string)
    requires a == "20240103.csv" && b == "20240105.csv" && c == "20240110.csv"
    ensures Kept(a, 20240103, 20240109) && Kept(b, 20240103, 20240109)
    ensures !Kept(c, 20240103, 20240109) && ParseInt(Stem(c)).Some?
  {
    ExampleFiles();
    ExampleValues();
  }

  /** The reference selection of the example's files between the two days. */
  lemma ExampleSelection(names: seq<string>)
    requires names == ["20240103.csv", "20240105.csv", "20240110.csv"]
    ensures forall i :: 0 <= i < |names| ==> ParseInt(Stem(names[i])).Some?
    ensures Selection(names, 20240103, 20240109) == names[..2]
  {
    ExampleKept(names[0], names[1], names[2]);
    ThreeDaySelection(names, 20240103, 20240109);
  }

  /**
   * Files 20240103, 20240105 and 20240110 with the range 2024-01-03 to
   * 2024-01-09 select the first two, in listing order.
   */
  lemma SelectionExample(names: seq<string>, startDate: string, endDate: string)
    requires names == ["20240103.csv", "20240105.csv", "20240110.csv"]
    requires startDate == "2024-01-03" && endDate == "2024-01-09"
    ensures GetCsvFiles(names, startDate, endDate) == Ok(names[..2])
  {
    assert ParseInt(DateKey(startDate)) == Some(20240103) && ParseInt(DateKey(endDate)) == Some(20240109) by {
      ExampleKeys();
      ExampleValues();
    }
    ExampleSelection(names);
    GetCsvFilesIsSelection(names, startDate, endDate, 20240103, 20240109);
  }
}

=== FILE: signals.dfy ===
/**
 * One sampled row of a machine log and the five machine states a row can be
 * classified into.
 *
 * A row of the log holds eighteen named signal columns. The program compares
 * every column against the integers 0 and 1, so the values are kept as `int`:
 * a value outside {0, 1} (or a missing reading, which compares unequal to both)
 * is a legitimate input and changes which rules match.
 */
module Signals {
  import opened Wrappers

  /** The eighteen signal columns, one field per column of the log. */
  datatype SignalRow = SignalRow(
    atmdAlarm: int,   // ATMD_ALARM
    atmdMem: int,     // ATMD_MEM
    atmdTape: int,    // ATMD_TAPE
    atmdMdi: int,     // ATMD_MDI
    atmdNa3: int,     // ATMD_NA.3
    mnmdRet: int,     // MNMD_RET
    mnmdPtp: int,     // MNMD_PTP
    mnmdStep: int,    // MNMD_STEP
    mnmdHand: int,    // MNMD_HAND
    mnmdJog: int,     // MNMD_JOG
    sgnlDen2: int,    // SGNL_DEN2
    sgnlSmz: int,     // SGNL_SMZ
    sgnlInp: int,     // SGNL_INP
    sgnlAfc: int,     // SGNL_AFC
    sgnlCut: int,     // SGNL_CUT
    sgnlCxf: int,     // SGNL_CXF
    sgnlStl: int,     // SGNL_STL
    sgnlOp: int       // SGNL_OP
  )

  /** The row with every signal at 0; handy as a base for concrete rows. */
  const Quiet: SignalRow := SignalRow(0, 0, 0, 0, 0, 0, 0, 0, 0, 0, 0, 0, 0, 0, 0, 0, 0, 0)

  /** The machine states, in the program's priority order. */
  datatype MachineState = Alarm | AutoRunning | FeedHold | Setup | Empty

  /** The text the program writes into its `Machine_State` column. */
  function Label(s: MachineState): (r: string)
    ensures r in Labels
  {
    match s
    case Alarm => "ALARM"
    case AutoRunning => "AUTO KJØRING"
    case FeedHold => "FEED HOLD"
    case Setup => "OPPSETT"
    case Empty => "empty"
  }

  /** The five texts the classifier can produce. */
  const Labels: set<string> := {"ALARM", "AUTO KJØRING", "FEED HOLD", "OPPSETT", "empty"}

  /** Reads a state back from its label; the inverse of `Label`. */
  function ParseLabel(t: string): (r: Option<MachineState>)
    ensures r.Some? <==> t in Labels
  {
    if t == "ALARM" then Some(Alarm)
    else if t == "AUTO KJØRING" then Some(AutoRunning)
    else if t == "FEED HOLD" then Some(FeedHold)
    else if t == "OPPSETT" then Some(Setup)
    else if t == "empty" then Some(Empty)
    else None
  }

  /** Reading a label back gives the state it was written for, and every label read is written back unchanged. */
  lemma LabelRoundTrip(s: MachineState, t: string)
    ensures ParseLabel(Label(s)) == Some(s)
    ensures ParseLabel(t).Some? ==> Label(ParseLabel(t).value) == t
  {
  }

  /** Different states are written with different labels. */
  lemma LabelInjective(s: MachineState, t: MachineState)
    ensures Label(s) == Label(t) <==> s == t
  {
    LabelRoundTrip(s, "");
    LabelRoundTrip(t, "");
  }

  /** The signal columns the classifier reads. */
  datatype Column =
    | AtmdAlarm | AtmdMem | AtmdTape | AtmdMdi | AtmdNa3
    | MnmdRet | MnmdPtp | MnmdStep | MnmdHand | MnmdJog
    | SgnlDen2 | SgnlSmz | SgnlInp | SgnlAfc | SgnlCut
    | SgnlCxf | SgnlStl | SgnlOp

  /** The header text of each column in the log files. */
  function ColumnName(c: Column): string {
    match c
    case AtmdAlarm => "ATMD_ALARM"
    case AtmdMem => "ATMD_MEM"
    case AtmdTape => "ATMD_TAPE"
    case AtmdMdi => "ATMD_MDI"
    case AtmdNa3 => "ATMD_NA.3"
    case MnmdRet => "MNMD_RET"
    case MnmdPtp => "MNMD_PTP"
    case MnmdStep => "MNMD_STEP"
    case MnmdHand => "MNMD_HAND"
    case MnmdJog => "MNMD_JOG"
    case SgnlDen2 => "SGNL_DEN2"
    case SgnlSmz => "SGNL_SMZ"
    case SgnlInp => "SGNL_INP"
    case SgnlAfc => "SGNL_AFC"
    case SgnlCut => "SGNL_CUT"
    case SgnlCxf => "SGNL_CXF"
    case SgnlStl => "SGNL_STL"
    case SgnlOp => "SGNL_OP"
  }

  /** Different columns have different headers, so a header names one column. */
  lemma ColumnNameInjective(a: Column, b: Column)
    ensures ColumnName(a) == ColumnName(b) <==> a == b
  {
  }

  /** The value a row holds in column `c`. */
  function Signal(row: SignalRow, c: Column): int {
    match c
    case AtmdAlarm => row.atmdAlarm
    case AtmdMem => row.atmdMem
    case AtmdTape => row.atmdTape
    case AtmdMdi => row.atmdMdi
    case AtmdNa3 => row.atmdNa3
    case MnmdRet => row.mnmdRet
    case MnmdPtp => row.mnmdPtp
    case MnmdStep => row.mnmdStep
    case MnmdHand => row.mnmdHand
    case MnmdJog => row.mnmdJog
    case SgnlDen2 => row.sgnlDen2
    case SgnlSmz => row.sgnlSmz
    case SgnlInp => row.sgnlInp
    case SgnlAfc => row.sgnlAfc
    case SgnlCut => row.sgnlCut
    case SgnlCxf => row.sgnlCxf
    case SgnlStl => row.sgnlStl
    case SgnlOp => row.sgnlOp
  }

  /**
   * A row as the program sees it: the cells of the signal columns the file
   * actually has. A column missing from the file is missing from every row.
   */
  type Cells = map<Column, int>

  /** The row has every signal column. */
  predicate Complete(cells: Cells) {
    forall c: Column :: c in cells
  }

  /** The record view of a complete row: every column keeps its value. */
  function RowOf(cells: Cells): (r: SignalRow)
    requires Complete(cells)
    ensures forall c: Column :: Signal(r, c) == cells[c]
  {
    SignalRow(
      cells[AtmdAlarm], cells[AtmdMem], cells[AtmdTape], cells[AtmdMdi],
      cells[AtmdNa3], cells[MnmdRet], cells[MnmdPtp], cells[MnmdStep],
      cells[MnmdHand], cells[MnmdJog], cells[SgnlDen2], cells[SgnlSmz],
      cells[SgnlInp], cells[SgnlAfc], cells[SgnlCut], cells[SgnlCxf],
      cells[SgnlStl], cells[SgnlOp])
  }

  /** The cells of a record; `RowOf` undoes it. */
  function CellsOf(row: SignalRow): (cells: Cells)
    ensures Complete(cells)
    ensures RowOf(cells) == row
  {
    map c: Column :: Signal(row, c)
  }
}

=== FILE: text.dfy ===
/**
 * The few Python string operations the program relies on: `int()` on a
 * string, `str.replace(old, '')`, `str.endswith` and clamped slicing.
 */
module Text {
  import opened Wrappers

  predicate IsDigit(c: char) {
    '0' <= c <= '9'
  }

  predicate AllDigits(s: string) {
    forall i :: 0 <= i < |s| ==> IsDigit(s[i])
  }

  /** The value of one digit character. */
  function Digit(c: char): nat
    requires IsDigit(c)
  {
    c as int - '0' as int
  }

  /** The value of a string of decimal digits; leading zeros are allowed, as in `int("007")`. */
  function DigitsValue(s: string): nat
    requires AllDigits(s)
  {
    if |s| == 0 then 0 else 10 * DigitsValue(s[..|s| - 1]) + Digit(s[|s| - 1])
  }

  /** The text `int()` accepts: an optional sign followed by at least one digit. */
  predicate IsIntegerLiteral(s: string) {
    || (|s| > 0 && AllDigits(s))
    || (|s| > 1 && (s[0] == '+' || s[0] == '-') && AllDigits(s[1..]))
  }

  /** Python's `int(s)`: `None` where Python raises `ValueError`. */
  function ParseInt(s: string): (r: Option<int>)
    ensures r.Some? <==> IsIntegerLiteral(s)
    ensures r.Some? && |s| > 0 && s[0] != '-' ==> r.value >= 0
  {
    if |s| > 1 && (s[0] == '+' || s[0] == '-') && AllDigits(s[1..]) then
      var magnitude: int := DigitsValue(s[1..]);
      Some(if s[0] == '-' then -magnitude else magnitude)
    else if |s| > 0 && AllDigits(s) then Some(DigitsValue(s))
    else None
  }

  /** The digit character for `d`. */
  function DigitChar(d: nat): (c: char)
    requires d < 10
    ensures IsDigit(c) && Digit(c) == d
  {
    ('0' as int + d) as char
  }

  /** Python's `str(n)` for a natural number: its decimal digits. */
  function DecimalString(n: nat): (r: string)
    ensures |r| > 0 && AllDigits(r)
    ensures DigitsValue(r) == n
  {
    if n < 10 then [DigitChar(n)]
    else
      var prefix := DecimalString(n / 10);
      var r := prefix + [DigitChar(n % 10)];
      assert r[..|r| - 1] == prefix;
      r
  }

  /** `int(str(n)) == n`, with and without a minus sign. */
  lemma ParseDecimalString(n: nat)
    ensures ParseInt(DecimalString(n)) == Some(n)
    ensures ParseInt("-" + DecimalString(n)) == Some(-(n as int))
  {
    var digits := DecimalString(n);
    assert ("-" + digits)[1..] == digits;
  }

  /**
   * Python's `s.replace(pat, '')`: scanning left to right, every
   * non-overlapping occurrence of `pat` is dropped.
   */
  function RemoveAll(s: string, pat: string): (r: string)
    requires |pat| > 0
    ensures |r| <= |s|
    decreases |s|
  {
    if |s| < |pat| then s
    else if s[..|pat|] == pat then RemoveAll(s[|pat|..], pat)
    else [s[0]] + RemoveAll(s[1..], pat)
  }

  /** A string in which the pattern's first character never occurs comes back unchanged. */
  lemma {:induction false} RemoveAllAbsent(s: string, pat: string)
    requires |pat| > 0
    requires forall i :: 0 <= i < |s| ==> s[i] != pat[0]
    ensures RemoveAll(s, pat) == s
    decreases |s|
  {
    if |s| >= |pat| {
      assert s[..|pat|] != pat by {
        assert s[..|pat|][0] == s[0];
      }
      RemoveAllAbsent(s[1..], pat);
      assert [s[0]] + s[1..] == s;
    }
  }

  /** Removing a one-character pattern leaves no occurrence of it. */
  lemma {:induction false} RemoveAllChar(s: string, c: char)
    ensures forall i :: 0 <= i < |RemoveAll(s, [c])| ==> RemoveAll(s, [c])[i] != c
    decreases |s|
  {
    if |s| >= 1 {
      RemoveAllChar(s[1..], c);
      if s[..1] != [c] {
        assert s[0] != c;
      }
    }
  }

  /** Removing a one-character pattern from `a c b`, where `a` has no `c`, keeps `a` and drops that `c`. */
  lemma {:induction false} RemoveAllSplit(a: string, c: char, b: string)
    requires forall i :: 0 <= i < |a| ==> a[i] != c
    ensures RemoveAll(a + [c] + b, [c]) == a + RemoveAll(b, [c])
    decreases |a|
  {
    var s := a + [c] + b;
    if |a| == 0 {
      assert s[..1] == [c] && s[1..] == b;
    } else {
      assert s[..1] != [c] by {
        assert s[..1][0] == a[0];
      }
      assert s[0] == a[0];
      assert s[1..] == a[1..] + [c] + b;
      assert RemoveAll(s, [c]) == [a[0]] + RemoveAll(s[1..], [c]);
      RemoveAllSplit(a[1..], c, b);
      assert [a[0]] + (a[1..] + RemoveAll(b, [c])) == a + RemoveAll(b, [c]);
    }
  }

  /** The value of eight digits, written out digit by digit. */
  lemma EightDigits(s: string)
    requires |s| == 8 && AllDigits(s)
    ensures DigitsValue(s) == 10000000 * Digit(s[0]) + 1000000 * Digit(s[1]) + 100000 * Digit(s[2])
      + 10000 * Digit(s[3]) + 1000 * Digit(s[4]) + 100 * Digit(s[5]) + 10 * Digit(s[6]) + Digit(s[7])
  {
    assert s[..7][..6] == s[..6] && s[..6][..5] == s[..5] && s[..5][..4] == s[..4];
    assert s[..4][..3] == s[..3] && s[..3][..2] == s[..2] && s[..2][..1] == s[..1] && s[..1][..0] == [];
    assert DigitsValue(s[..1]) == Digit(s[0]);
    assert DigitsValue(s[..2]) == 10 * Digit(s[0]) + Digit(s[1]);
    assert DigitsValue(s[..3]) == 10 * DigitsValue(s[..2]) + Digit(s[2]);
    assert DigitsValue(s[..4]) == 10 * DigitsValue(s[..3]) + Digit(s[3]);
    assert DigitsValue(s[..5]) == 10 * DigitsValue(s[..4]) + Digit(s[4]);
    assert DigitsValue(s[..6]) == 10 * DigitsValue(s[..5]) + Digit(s[5]);
    assert DigitsValue(s[..7]) == 10 * DigitsValue(s[..6]) + Digit(s[6]);
  }

  /** Removing a pattern that ends a string whose remainder cannot start it leaves exactly that remainder. */
  lemma {:induction false} RemoveTrailing(stem: string, pat: string)
    requires |pat| > 0
    requires forall i :: 0 <= i < |stem| ==> stem[i] != pat[0]
    ensures RemoveAll(stem + pat, pat) == stem
    decreases |stem|
  {
    var s := stem + pat;
    if |stem| == 0 {
      assert s == pat;
      assert s[..|pat|] == pat && s[|pat|..] == [];
    } else {
      assert s[0] == stem[0] && s[0] != pat[0];
      assert s[..|pat|] != pat by {
        assert s[..|pat|][0] != pat[0];
      }
      assert s[1..] == stem[1..] + pat;
      RemoveTrailing(stem[1..], pat);
      assert [stem[0]] + stem[1..] == stem;
    }
  }

  /** Python's `s.endswith(suffix)`. */
  predicate EndsWith(s: string, suffix: string) {
    |suffix| <= |s| && s[|s| - |suffix|..] == suffix
  }

  /** Python's `s[i:j]` for non-negative bounds: both bounds are clamped to the string. */
  function Slice(s: string, i: nat, j: nat): (r: string)
    ensures i <= j <= |s| ==> r == s[i..j]
    ensures |s| <= i || j <= i ==> r == ""
    ensures i < |s| < j ==> r == s[i..]
  {
    var lo := if i < |s| then i else |s|;
    var hi := if j < |s| then j else |s|;
    if lo <= hi then s[lo..hi] else ""
  }

  /** Adjacent slices join into the slice that spans them both, whatever the string's length. */
  lemma SliceConcat(s: string, i: nat, j: nat, k: nat)
    requires i <= j <= k
    ensures Slice(s, i, j) + Slice(s, j, k) == Slice(s, i, k)
  {
    if k <= |s| {
      assert s[i..j] + s[j..k] == s[i..k];
    } else if j <= |s| {
      assert s[i..j] + s[j..] == s[i..];
    }
  }
}

=== FILE: timeline.dfy ===
/**
 * Time stamps and lane labels for the rows of one day file (`make_dataframe`).
 *
 * Every file's rows are laid out from the same anchor, 2024-01-01 00:00:00,
 * one row per ten seconds, so that all days share one 24-hour axis; the day
 * itself is carried by the lane label built from the file name. Time is kept
 * as whole seconds after the anchor.
 */
module Timeline {
  import opened Text
  import opened DateFilter

  /** The anchor of every file's first row, 2024-01-01 00:00:00, as seconds after itself. */
  const Epoch: int := 0

  /** Seconds between consecutive rows, and the width of every interval. */
  const Period: int := 10

  /** A row of a day file (its signal cells, whatever their form) with its interval `[start, end)` and lane label. */
  datatype TimedRow<R> = TimedRow(signals: R, start: int, end: int, resource: string)

  /**
   * The lane label `name[0:4] + "-" + name[4:6] + "-" + name[6:8]`. For a
   * name of at least eight characters it is ten characters long, with dashes
   * at positions 4 and 7 between the name's first eight characters.
   */
  function ResourceLabel(name: string): (r: string)
    ensures |name| >= 8 ==> |r| == 10 && r[4] == '-' && r[7] == '-'
    ensures |name| >= 8 ==> forall i :: 0 <= i < 4 ==> r[i] == name[i]
    ensures |name| >= 8 ==> forall i :: 4 <= i < 6 ==> r[i + 1] == name[i]
    ensures |name| >= 8 ==> forall i :: 6 <= i < 8 ==> r[i + 2] == name[i]
  {
    Slice(name, 0, 4) + "-" + Slice(name, 4, 6) + "-" + Slice(name, 6, 8)
  }

  /** A name shorter than four characters keeps all of them, followed by two dashes. */
  lemma ShortNameLabel(name: string)
    requires |name| < 4
    ensures ResourceLabel(name) == name + "--"
  {
    assert Slice(name, 0, 4) == name;
  }

  /**
   * A name of four to seven characters keeps them all: the missing tail of
   * the second or third part is simply absent.
   */
  lemma MidNameLabel(name: string)
    requires 4 <= |name| < 8
    ensures |name| <= 6 ==> ResourceLabel(name) == name[..4] + "-" + name[4..] + "-"
    ensures 6 <= |name| ==> ResourceLabel(name) == name[..4] + "-" + name[4..6] + "-" + name[6..]
  {
    if |name| <= 6 {
      assert Slice(name, 6, 8) == "";
    }
  }

  /** Removing the dashes of the lane label gives back the first eight characters of the name. */
  lemma ResourceLabelRoundTrip(name: string)
    requires |name| >= 8
    requires forall i :: 0 <= i < 8 ==> name[i] != '-'
    ensures DateKey(ResourceLabel(name)) == name[..8]
  {
    DateKeyOfDashed(name[..4], name[4..6], name[6..8]);
    assert ResourceLabel(name) == name[..4] + "-" + name[4..6] + "-" + name[6..8];
    assert name[..4] + name[4..6] + name[6..8] == name[..8];
  }

  /**
   * The frame of one file: one timed row per input row, in order. The first
   * row starts at the anchor, every interval is `Period` wide, each row ends
   * where the next begins, and all rows carry the file's lane label.
   */
  function MakeFrame<R>(name: string, rows: seq<R>): (r: seq<TimedRow<R>>)
    ensures |r| == |rows|
    ensures forall i :: 0 <= i < |r| ==> r[i].signals == rows[i] && r[i].resource == ResourceLabel(name)
    ensures |r| > 0 ==> r[0].start == Epoch
    ensures forall i :: 0 <= i < |r| ==> r[i].end == r[i].start + Period
    ensures forall i :: 0 < i < |r| ==> r[i - 1].end == r[i].start
  {
    var lane := ResourceLabel(name);
    seq(|rows|, i requires 0 <= i < |rows| => TimedRow(rows[i], Epoch + Period * i, Epoch + Period * i + Period, lane))
  }

  /** Row `i` of a file spans `[Epoch + 10 i, Epoch + 10 i + 10)`; it follows from the frame's contract alone. */
  lemma {:induction false} FrameStart<R>(name: string, rows: seq<R>, i: nat)
    requires i < |rows|
    ensures MakeFrame(name, rows)[i].start == Epoch + Period * i
    ensures MakeFrame(name, rows)[i].end == Epoch + Period * (i + 1)
  {
    var frame := MakeFrame(name, rows);
    if i > 0 {
      FrameStart(name, rows, i - 1);
      assert frame[i].start == frame[i - 1].end;
    }
  }

  /** The intervals of a file are strictly increasing and never overlap. */
  lemma FrameOrdered<R>(name: string, rows: seq<R>, i: nat, j: nat)
    requires i < j < |rows|
    ensures MakeFrame(name, rows)[i].start < MakeFrame(name, rows)[j].start
    ensures MakeFrame(name, rows)[i].end <= MakeFrame(name, rows)[j].start
  {
    FrameStart(name, rows, i);
    FrameStart(name, rows, j);
  }

  /**
   * Three rows of `20240103.csv` lie on lane `2024-01-03` at
   * 00:00:00-00:00:10, 00:00:10-00:00:20 and 00:00:20-00:00:30.
   */
  lemma FrameExample<R>(rows: seq<R>)
    requires |rows| == 3
    ensures var frame := MakeFrame("20240103.csv", rows);
      && frame[0].start == 0 && frame[0].end == 10
      && frame[1].start == 10 && frame[1].end == 20
      && frame[2].start == 20 && frame[2].end == 30
      && forall i :: 0 <= i < 3 ==> frame[i].resource == "2024-01-03"
  {
    FrameStart("20240103.csv", rows, 1);
    FrameStart("20240103.csv", rows, 2);
    var lane := ResourceLabel("20240103.csv");
    assert |lane| == 10;
    assert lane == "2024-01-03";
  }

  /**
   * A day file `YYYYMMDD.csv` that `get_csv_files` selected lies on a lane
   * whose date, with its dashes removed, falls in the requested range.
   */
  lemma SelectedLaneInRange(names: seq<string>, startDate: string, endDate: string, digits: string)
    requires |digits| == 8 && AllDigits(digits)
    requires GetCsvFiles(names, startDate, endDate).Ok?
    requires digits + Extension in GetCsvFiles(names, startDate, endDate).value
    ensures ParseInt(DateKey(startDate)).Some? && ParseInt(DateKey(endDate)).Some?
    ensures ParseInt(DateKey(ResourceLabel(digits + Extension))).Some?
    ensures ParseInt(DateKey(startDate)).value
         <= ParseInt(DateKey(ResourceLabel(digits + Extension))).value
         <= ParseInt(DateKey(endDate)).value
  {
    var name := digits + Extension;
    DayFileStem(digits);
    assert forall i :: 0 <= i < 8 ==> name[i] == digits[i];
    ResourceLabelRoundTrip(name);
    assert name[..8] == digits;
  }
}

=== FILE: wrappers.dfy ===
/** Failure-compatible wrappers used to model the exceptions the program raises. */
module Wrappers {

  /** An optional value: `None` stands for "not parseable" or "no such column". */
  datatype Option<+T> = None | Some(value: T)

  /** Either a value or the error that a Python exception would carry. */
  datatype Result<+R, +E> = Ok(value: R) | Err(error: E) {

    predicate IsFailure() {
      Err?
    }

    function PropagateFailure<U>(): Result<U, E>
      requires Err?
    {
      Err(error)
    }

    function Extract(): R
      requires Ok?
    {
      value
    }
  }
}
